=== FILE: README.md ===
# cf-java-client operations and routing, modelled in Dafny

This project models the deterministic core of the Cloud Foundry Java client.

- **Request validation.** `UnbindServiceRequest.isValid`, and the operations-level `ListDomainsRequest`: its builder, its filter tags and its `isValid`. `DefaultDomains.list` itself receives the v2 client request of the same name (DefaultDomains.java:22 imports it); the operations request stands in for its names and owning organization ids.
- **Operations of the operations layer.** Binding and unbinding services (`DefaultServices`), creating, creating shared and listing domains (`DefaultDomains`), deleting and listing service brokers (`DefaultServiceAdmin`), and getting and listing stacks (`DefaultStacks`).
  - Every operation except the stack operations and `listServiceBrokers` first validates its request.
  - `bind`, `unbind`, `create` and `deleteServiceBroker` look resources up by name and require exactly one match. They rewrite "no match" into an `IllegalArgumentException` with a fixed message, then issue the create or delete with the resolved id.
  - Stacks `get` does the same lookup and returns the stack's summary without writing.
  - `createShared` issues its create with no lookup. The list operations issue one list call and write nothing.
- **Resource-to-summary projections.** `toDomain`, `toServiceBroker` and `toStack`.
- **Routing tables of the reactor client.** The v2 domains endpoints, the v2 environment-variable-group endpoints and the UAA token endpoints, including the header handling of the token form posts.
- **The v3 verb wrappers.** The URI augmenter's order (filters, then query parameters, then the endpoint's transformer), the body each wrapper sends, and the translation of HTTP failures.

How the client is represented:

- The Cloud Foundry client is an immutable server snapshot (`Client.Server`). Each collection is either the flat sequence of its resources in server order or the failure its list request ends with.
- Every operation is a pure function that returns an `Outcome`: the client calls it issued, in order, and its `Result`.
- This lets the contracts say:
  - that an invalid request issues no call;
  - that a lookup filters by the requested name;
  - that the only write is the final create or delete;
  - that a failed operation wrote nothing.
- The helpers whose code is not part of this model are parameters or stated assumptions:
  - page walking, which is treated as the flat sequence of matches;
  - filter and query rendering;
  - the exception builder;
  - `basicAuth`;
  - the rendering of validation messages.
- Requests whose own `isValid` is not part of this model (`BindServiceRequest`, `CreateDomainRequest`, `CreateSharedDomainRequest`, `DeleteServiceBrokerRequest`) have their validation result passed in as a `verdict` parameter.

Modules, one per file: `Results`, `Errors`, `Validation`, `UnbindServiceRequests`, `ListDomainsRequests`, `Client`, `Services`, `Domains`, `ServiceAdmin`, `Stacks`, `Routing`, `ReactorDomains`, `ReactorEnvironmentVariableGroups`, `ReactorTokens`, `ClientV3Operations`.

## Model

| member | source | states |
|---|---|---|
| UnbindServiceRequests.IsValid | cloudfoundry-operations/src/main/lombok/org/cloudfoundry/operations/services/UnbindServiceRequest.java:53-66 | A missing application name gives "application name must be specified" and a missing service name gives "service name must be specified", in both directions. There is one message per missing name, the application message comes first, and the status is VALID exactly when both names are present. |
| UnbindServiceRequests.BothMissing | cloudfoundry-operations/src/main/lombok/org/cloudfoundry/operations/services/UnbindServiceRequest.java:55-65 | With both names absent the messages are exactly the two texts, application first. |
| ListDomainsRequests.BuildKeepsInsertionOrder | cloudfoundry-operations/src/main/lombok/org/cloudfoundry/operations/domains/ListDomainsRequest.java:55-62 | The built request holds exactly the names and owning organization ids the builder was given, in call order, with nothing dropped, reordered or deduplicated. |
| ListDomainsRequests.BuildPassesPaging | cloudfoundry-operations/src/main/lombok/org/cloudfoundry/operations/domains/ListDomainsRequest.java:55-59 | For each of order direction, page and results-per-page, the built request holds the value of the last builder call that set it, unchanged. A field never set stays absent. |
| ListDomainsRequests.Filters | cloudfoundry-operations/src/main/lombok/org/cloudfoundry/operations/domains/ListDomainsRequest.java:43-53 | The request declares exactly two IN filters: first "name", then "owning_organization_guid". |
| ListDomainsRequests.FiltersCarryFields | cloudfoundry-operations/src/main/lombok/org/cloudfoundry/operations/domains/ListDomainsRequest.java:43-53 | "name" carries the names field and "owning_organization_guid" carries the owning organization ids field. |
| ListDomainsRequests.IsValid | cloudfoundry-operations/src/main/lombok/org/cloudfoundry/operations/domains/ListDomainsRequest.java:64-67 | Every request is valid and produces no message, whatever its fields hold. |
| Validation.Validate | cloudfoundry-operations/src/main/java/org/cloudfoundry/operations/domains/DefaultDomains.java:58-60 | A request passes unchanged exactly when its validation produced no message. Otherwise the operation fails with those messages. |
| Errors.DoesNotExist | cloudfoundry-operations/src/main/java/org/cloudfoundry/operations/services/DefaultServices.java:105-109 | Formatting "<kind> %s does not exist" with a name gives the text "<kind> <name> does not exist". |
| Errors.FormatOne | cloudfoundry-operations/src/main/java/org/cloudfoundry/operations/services/DefaultServices.java:101 | A template with one `%s` is rendered with the first argument, and any further arguments are ignored. |
| Errors.FormatLiteral | cloudfoundry-operations/src/main/java/org/cloudfoundry/operations/services/DefaultServices.java:108 | A template without `%` renders as itself, whatever the arguments. |
| Errors.FormatSplice | cloudfoundry-operations/src/main/java/org/cloudfoundry/operations/services/DefaultServices.java:119 | A `%s` after `%`-free text is replaced by the first argument, and the rest of the template is rendered with the remaining arguments. |
| Errors.InvalidRequestTextSingle | cloudfoundry-operations/src/test/java/org/cloudfoundry/operations/domains/DefaultDomainsTest.java:195-212 | One validation message is shown as "Request is invalid: <message>". |
| Client.Single | cloudfoundry-operations/src/main/java/org/cloudfoundry/operations/stacks/DefaultStacks.java:50-53 | `single()` succeeds exactly on one element and returns it. No element is NoSuchElement and several are TooManyElements, in both directions. |
| Client.ReplaceNoSuchElement | cloudfoundry-operations/src/main/java/org/cloudfoundry/operations/domains/DefaultDomains.java:83 | Only the empty-result error is replaced. Successes and every other error are left unchanged. |
| Client.LookupSingle | cloudfoundry-operations/src/main/java/org/cloudfoundry/operations/domains/DefaultDomains.java:80-84 | A lookup succeeds exactly when the collection answers with one match, and the match satisfies the filter. No match gives the lookup's own message, several matches give TooManyElements, and a failed collection keeps its failure. |
| Client.Project | cloudfoundry-operations/src/main/java/org/cloudfoundry/operations/serviceadmin/DefaultServiceAdmin.java:49-51 | Mapping a listing keeps its length and maps position i to position i. |
| Services.GetApplication | cloudfoundry-operations/src/main/java/org/cloudfoundry/operations/services/DefaultServices.java:105-114 | Succeeds exactly on a unique application of that name in that space. No such application gives "Application <name> does not exist". |
| Services.GetSpaceServiceInstance | cloudfoundry-operations/src/main/java/org/cloudfoundry/operations/services/DefaultServices.java:116-125 | Succeeds exactly on a unique service instance of that name in that space, user-provided ones included. No such instance gives "Service <name> does not exist". |
| Services.GetServiceBindingId | cloudfoundry-operations/src/main/java/org/cloudfoundry/operations/services/DefaultServices.java:92-103 | Succeeds exactly on a unique binding of that application and service instance and returns its id. No binding gives the "no binding" message in the chosen text, as written or corrected, and several give TooManyElements. |
| Services.BindingMissingAsWritten | cloudfoundry-operations/src/main/java/org/cloudfoundry/operations/services/DefaultServices.java:101 | As written, the "no binding" message ends in "and serviceInstanceId" and has no id after it. |
| Services.RenderBindingMissingAsWritten | cloudfoundry-operations/src/main/java/org/cloudfoundry/operations/services/DefaultServices.java:101 | The one-placeholder template given the application id and the instance id renders with the application id only. |
| Services.BindingMissingAsWrittenDropsInstance | cloudfoundry-operations/src/main/java/org/cloudfoundry/operations/services/DefaultServices.java:101 | As written, two different service instances of the same application give the same message. |
| Services.BindingMissing | cloudfoundry-operations/src/main/java/org/cloudfoundry/operations/services/DefaultServices.java:101 | The corrected message names both the application id and the service instance id. |
| Services.RenderBindingMissing | cloudfoundry-operations/src/main/java/org/cloudfoundry/operations/services/DefaultServices.java:101 | The corrected template renders with the application id and then the instance id. |
| Services.BindingMissingNamesInstance | cloudfoundry-operations/src/main/java/org/cloudfoundry/operations/services/DefaultServices.java:101 | With the corrected message, equal messages imply the same service instance. |
| Services.ResolveBoth | cloudfoundry-operations/src/main/java/org/cloudfoundry/operations/services/DefaultServices.java:53-60 | Resolving both names succeeds exactly when both resolve uniquely, and yields the two resolved ids. Only reads are issued, by the requested names, with user-provided instances included. A missing service with a uniquely resolved application gives "Service <name> does not exist". A uniquely resolved service with a missing application gives "Application <name> does not exist". When both are missing, the error is one of those two messages. |
| Services.Bind | cloudfoundry-operations/src/main/java/org/cloudfoundry/operations/services/DefaultServices.java:51-63 | An invalid request issues no call. Success happens exactly when the request is valid and both names resolve. On success the only write is the final create-binding, with the resolved application id, the resolved instance id and the request's parameters unchanged. A failure writes nothing. A missing service with a uniquely resolved application gives "Service <name> does not exist". A uniquely resolved service with a missing application gives "Application <name> does not exist". When both are missing, the error is one of those two messages. |
| Services.UnbindIds | cloudfoundry-operations/src/main/java/org/cloudfoundry/operations/services/DefaultServices.java:84-103 | The binding list is asked for that application and instance. Success happens exactly when one binding matches, and the only write is the final delete by that binding's id. No binding gives the "no binding" message in the chosen text. |
| Services.UnbindNames | cloudfoundry-operations/src/main/java/org/cloudfoundry/operations/services/DefaultServices.java:69-80 | Success happens exactly when both names resolve and their pair has one binding, and the only write is the delete of that binding. A failure writes nothing. Missing names give the messages described for `bind`, and two resolved names without a binding give the "no binding" message for their ids. |
| Services.Unbind | cloudfoundry-operations/src/main/java/org/cloudfoundry/operations/services/DefaultServices.java:65-82 | The request's own check runs first, and an invalid request issues no call. Success happens exactly when both names are present and resolve to one binding. On success the only write is that binding's delete. Missing names give the `bind` messages, and a missing binding gives the corrected message naming both ids. |
| Services.UnbindAsWritten | cloudfoundry-operations/src/main/java/org/cloudfoundry/operations/services/DefaultServices.java:65-103 | `unbind` as written: the same calls as `Unbind` and success in the same cases. A missing binding gives the message that names only the application id. |
| Services.UnbindAsWrittenLosesInstance | cloudfoundry-operations/src/main/java/org/cloudfoundry/operations/services/DefaultServices.java:65-103 | As written, unbinding one application from two different instances that both lack a binding fails with the same error, while the corrected `Unbind` fails with two different errors. |
| Services.RequestServiceBinding | cloudfoundry-operations/src/main/java/org/cloudfoundry/operations/services/DefaultServices.java:137-144 | The create-binding call is a write that carries the application id, the service instance id and the parameters unchanged. |
| Services.RequestServiceUnbinding | cloudfoundry-operations/src/main/java/org/cloudfoundry/operations/services/DefaultServices.java:84-90 | The delete call is a write of the binding with that id. |
| Domains.GetOrganization | cloudfoundry-operations/src/main/java/org/cloudfoundry/operations/domains/DefaultDomains.java:80-89 | Succeeds exactly on a unique organization of that name. None gives "Organization <name> does not exist", several give TooManyElements, and any other failure of the list is propagated unchanged. |
| Domains.Create | cloudfoundry-operations/src/main/java/org/cloudfoundry/operations/domains/DefaultDomains.java:47-54 | An invalid request issues no call. Success happens exactly when the request is valid and the organization resolves. The calls are then the organization lookup by name and one private-domain create, with the domain name and the resolved organization id. An unknown organization gives its message, and a failure writes nothing. |
| Domains.CreateShared | cloudfoundry-operations/src/main/java/org/cloudfoundry/operations/domains/DefaultDomains.java:56-62 | A valid request issues exactly one shared-domain create with the requested name and succeeds. An invalid one issues nothing. |
| Domains.CreateSharedWithoutDomain | cloudfoundry-operations/src/test/java/org/cloudfoundry/operations/domains/DefaultDomainsTest.java:195-212 | Given the validation message "domain must be specified", which the request's own check reports for a missing domain, `createShared` issues no call and fails with "Request is invalid: domain must be specified". |
| Domains.ToDomain | cloudfoundry-operations/src/main/java/org/cloudfoundry/operations/domains/DefaultDomains.java:115-123 | The summary takes the id from the metadata and the name and owning organization from the entity. An absent owner stays absent. |
| Domains.ToDomainRoundTrip | cloudfoundry-operations/src/main/java/org/cloudfoundry/operations/domains/DefaultDomains.java:115-123 | The summary loses no field and swaps none, because it inverts with its reference reconstruction. |
| Domains.ListAsWritten | cloudfoundry-operations/src/main/java/org/cloudfoundry/operations/domains/DefaultDomains.java:64-78 | An invalid request issues no call and fails with its messages. Otherwise, as written, the client list request carries no name or owner filter. The result is every domain of the server as a summary, in server order, and a failed listing propagates its failure. |
| Domains.ListAsWrittenIgnoresFilters | cloudfoundry-operations/src/main/java/org/cloudfoundry/operations/domains/DefaultDomains.java:72-78 | As written, two requests that differ in names or owners give the same calls and the same result. |
| Domains.ListAsWrittenReturnsUnrequested | cloudfoundry-operations/src/main/java/org/cloudfoundry/operations/domains/DefaultDomains.java:72-78 | As written, a request for domain "a" on a server holding only "b" returns "b". |
| Domains.List | cloudfoundry-operations/src/main/java/org/cloudfoundry/operations/domains/DefaultDomains.java:64-78 | An invalid request issues no call and fails with its messages. Otherwise the corrected list forwards the request's names and owners. Its result is the projection of the matching domains, in server order, and every returned domain satisfies the filters. A failed listing propagates its failure. |
| Domains.ListUnfilteredAgrees | cloudfoundry-operations/src/main/java/org/cloudfoundry/operations/domains/DefaultDomains.java:64-78 | With no names and no owners, the corrected and the as-written list return the same result. |
| ServiceAdmin.GetServiceBroker | cloudfoundry-operations/src/main/java/org/cloudfoundry/operations/serviceadmin/DefaultServiceAdmin.java:54-63 | Succeeds exactly on a unique broker of that name. None gives "Service broker <name> does not exist" and several give TooManyElements. |
| ServiceAdmin.DeleteServiceBroker | cloudfoundry-operations/src/main/java/org/cloudfoundry/operations/serviceadmin/DefaultServiceAdmin.java:40-46 | An invalid request issues no call. Success happens exactly when the request is valid and the broker resolves. The calls are then the lookup filtered by name and one delete by the resolved id. An unknown broker gives its message, and a failure writes nothing. |
| ServiceAdmin.ToServiceBroker | cloudfoundry-operations/src/main/java/org/cloudfoundry/operations/serviceadmin/DefaultServiceAdmin.java:89-97 | The summary's id comes from the metadata, and its name and URL from the entity's name and broker URL. |
| ServiceAdmin.ToServiceBrokerRoundTrip | cloudfoundry-operations/src/main/java/org/cloudfoundry/operations/serviceadmin/DefaultServiceAdmin.java:89-97 | The summary inverts with its reference reconstruction, so no field is lost or swapped. |
| ServiceAdmin.ListServiceBrokers | cloudfoundry-operations/src/main/java/org/cloudfoundry/operations/serviceadmin/DefaultServiceAdmin.java:48-52 | The one list call carries no name filter. The result is every broker's summary in server order, and an empty server gives an empty result that completes normally. |
| Stacks.ToStack | cloudfoundry-operations/src/main/java/org/cloudfoundry/operations/stacks/DefaultStacks.java:73-79 | The summary takes its description and name from the entity and its id from the metadata. |
| Stacks.ToStackRoundTrip | cloudfoundry-operations/src/main/java/org/cloudfoundry/operations/stacks/DefaultStacks.java:73-79 | The summary inverts with its reference reconstruction. |
| Stacks.GetStack | cloudfoundry-operations/src/main/java/org/cloudfoundry/operations/stacks/DefaultStacks.java:50-63 | Succeeds exactly on a unique stack of that name. None gives "Stack <name> does not exist" and several give TooManyElements. |
| Stacks.Get | cloudfoundry-operations/src/main/java/org/cloudfoundry/operations/stacks/DefaultStacks.java:38-42 | Without any validation, the one call is the stack list filtered by the requested name. It succeeds exactly on a unique match, returns that stack's summary with the requested name, and fails on an empty match with the "does not exist" message. |
| Stacks.List | cloudfoundry-operations/src/main/java/org/cloudfoundry/operations/stacks/DefaultStacks.java:44-48 | The one list call carries no name filter, and the result is every stack's summary in server order. |
| Stacks.GetAgreesWithList | cloudfoundry-operations/src/main/java/org/cloudfoundry/operations/stacks/DefaultStacks.java:38-71 | When a name is unique, `get` finds exactly a stack that `list` shows. |
| Routing.Apply | cloudfoundry-client-spring/src/main/java/org/cloudfoundry/reactor/uaa/tokens/ReactorTokens.java:79-80 | The builder after a sequence of calls has the segments and the query parameters of those calls appended, in call order. |
| Routing.PathTargets | cloudfoundry-client-spring/src/main/java/org/cloudfoundry/reactor/client/v2/domains/ReactorDomains.java:53-56 | A transformer that only appends path segments targets exactly those segments, with no query. |
| Routing.PathAndQueryTargets | cloudfoundry-client-spring/src/main/java/org/cloudfoundry/reactor/uaa/tokens/ReactorTokens.java:79-80 | `pathSegment(...)` followed by `queryParam` calls targets exactly that path and those parameters, in order. |
| ReactorDomains.Resolve | cloudfoundry-client-spring/src/main/java/org/cloudfoundry/reactor/client/v2/domains/ReactorDomains.java:53-76 | Reading a verb and URI back as a domains endpoint only ever names the endpoint whose own transformer builds exactly that verb and URI. |
| ReactorDomains.RouteResolves | cloudfoundry-client-spring/src/main/java/org/cloudfoundry/reactor/client/v2/domains/ReactorDomains.java:53-76 | The verb and URI each domains endpoint's transformer builds are read back as that endpoint. |
| ReactorDomains.RoutesDistinct | cloudfoundry-client-spring/src/main/java/org/cloudfoundry/reactor/client/v2/domains/ReactorDomains.java:53-76 | No two domains endpoints' transformers build the same verb and URI. |
| ReactorDomains.Targets | cloudfoundry-client-spring/src/main/java/org/cloudfoundry/reactor/client/v2/domains/ReactorDomains.java:53-76 | The five endpoints and the routes their transformers build, none adding a query: create is POST [v2, domains], delete is DELETE [v2, domains, id], get is GET [v2, domains, id], list is GET [v2, domains], and listSpaces is GET [v2, domains, id, spaces]. |
| ReactorEnvironmentVariableGroups.Resolve | cloudfoundry-client-spring/src/main/java/org/cloudfoundry/reactor/client/v2/environmentvariablegroups/ReactorEnvironmentVariableGroups.java:51-69 | Reading a verb and URI back only ever names the endpoint whose own transformer builds exactly that verb and URI. |
| ReactorEnvironmentVariableGroups.RouteResolves | cloudfoundry-client-spring/src/main/java/org/cloudfoundry/reactor/client/v2/environmentvariablegroups/ReactorEnvironmentVariableGroups.java:51-69 | The verb and URI each group endpoint's transformer builds are read back as that endpoint. |
| ReactorEnvironmentVariableGroups.ReadAndUpdateShareUri | cloudfoundry-client-spring/src/main/java/org/cloudfoundry/reactor/client/v2/environmentvariablegroups/ReactorEnvironmentVariableGroups.java:51-69 | Get and update of a group share one URI and differ only in verb, GET against PUT. The running and staging groups never share a URI. |
| ReactorEnvironmentVariableGroups.Targets | cloudfoundry-client-spring/src/main/java/org/cloudfoundry/reactor/client/v2/environmentvariablegroups/ReactorEnvironmentVariableGroups.java:51-69 | GET and PUT on [v2, config, environment_variable_groups, running or staging], one endpoint each. |
| ReactorTokens.PlainTargets | cloudfoundry-client-spring/src/main/java/org/cloudfoundry/reactor/uaa/tokens/ReactorTokens.java:71-115 | check's transformer builds POST [check_token], with basic auth from the configured client id and secret. getKey builds GET [token_key] and listKeys builds GET [token_keys]. None of the three transformers adds a query. |
| ReactorTokens.GrantTarget | cloudfoundry-client-spring/src/main/java/org/cloudfoundry/reactor/uaa/tokens/ReactorTokens.java:77-120 | Every grant's transformer builds a form post to [oauth, token] whose query parameters are exactly its grant parameters, and the grant uses its own request transformer. |
| ReactorTokens.ResolvePlain | cloudfoundry-client-spring/src/main/java/org/cloudfoundry/reactor/uaa/tokens/ReactorTokens.java:71-115 | Reading a request back as check, getKey or listKeys only ever names the endpoint whose transformers build exactly that request. |
| ReactorTokens.Grant | cloudfoundry-client-spring/src/main/java/org/cloudfoundry/reactor/uaa/tokens/ReactorTokens.java:77-120 | Reading a query and transformer back as a grant only ever names a grant that sends exactly that query and transformer. |
| ReactorTokens.GrantResolves | cloudfoundry-client-spring/src/main/java/org/cloudfoundry/reactor/uaa/tokens/ReactorTokens.java:77-120 | Every grant's query and transformer are read back as that grant. |
| ReactorTokens.Resolve | cloudfoundry-client-spring/src/main/java/org/cloudfoundry/reactor/uaa/tokens/ReactorTokens.java:71-120 | Reading a verb, URI and sending back only ever names the endpoint whose transformers build exactly that. |
| ReactorTokens.RouteResolves | cloudfoundry-client-spring/src/main/java/org/cloudfoundry/reactor/uaa/tokens/ReactorTokens.java:71-120 | The verb, URI and sending each token endpoint's transformers build are read back as that endpoint. |
| ReactorTokens.RoutesDistinct | cloudfoundry-client-spring/src/main/java/org/cloudfoundry/reactor/uaa/tokens/ReactorTokens.java:71-120 | No two token endpoints' transformers build the same verb, URI and sending. |
| ReactorTokens.GrantsTargetTokenEndpoint | cloudfoundry-client-spring/src/main/java/org/cloudfoundry/reactor/uaa/tokens/ReactorTokens.java:77-120 | Every grant is a POST form to [oauth, token] with a `grant_type` parameter. |
| ReactorTokens.GrantParameters | cloudfoundry-client-spring/src/main/java/org/cloudfoundry/reactor/uaa/tokens/ReactorTokens.java:79-119 | The (grant_type, response_type) pairs are: authorization code (authorization_code, token); client credentials (client_credentials, token); one-time passcode and password (password, token); OpenID (authorization_code, id_token). Refresh has grant_type refresh_token, and it is exactly the grant without a response_type. |
| ReactorTokens.PasswordAndPasscodeShareUri | cloudfoundry-client-spring/src/main/java/org/cloudfoundry/reactor/uaa/tokens/ReactorTokens.java:89-105 | The password and one-time-passcode grants share verb and URI. Only the passcode post authenticates, with the request's own client credentials. |
| ReactorTokens.Without | cloudfoundry-client-spring/src/main/java/org/cloudfoundry/reactor/uaa/tokens/ReactorTokens.java:128 | Removing a header leaves none of that name in any letter case, and keeps the values of every name that differs from it other than in case, in order. |
| ReactorTokens.AddHeader | cloudfoundry-client-spring/src/main/java/org/cloudfoundry/reactor/uaa/tokens/ReactorTokens.java:131 | Adding a header appends its value after the existing values of that name, compared case-insensitively, and leaves the other names alone. |
| ReactorTokens.ApplyTransform | cloudfoundry-client-spring/src/main/java/org/cloudfoundry/reactor/uaa/tokens/ReactorTokens.java:93 | The identity transformer changes nothing. Basic auth leaves exactly one Authorization value in any letter case, the given credentials, and touches no other header. |
| ReactorTokens.PostForm | cloudfoundry-client-spring/src/main/java/org/cloudfoundry/reactor/uaa/tokens/ReactorTokens.java:126-135 | A form post carries no Authorization header in any letter case unless its transformer adds one, and then exactly that one. It appends the form-urlencoded content type, keeps every other header, and is not chunked. |
| ReactorTokens.Send | cloudfoundry-client-spring/src/main/java/org/cloudfoundry/reactor/uaa/tokens/ReactorTokens.java:71-135 | getKey and listKeys send the prepared request unchanged. check replaces Authorization with the configured credentials, keeps the other headers and keeps chunking. Every grant ends unchunked, with the form content type appended, every header other than Authorization and Content-Type kept, and Authorization (in any letter case) being the request's client credentials for the one-time-passcode grant and absent for every other grant. |
| ReactorTokens.NamedFolds | cloudfoundry-client-spring/src/main/java/org/cloudfoundry/reactor/uaa/tokens/ReactorTokens.java:128 | Header names that differ only in ASCII letter case select the same values. |
| ReactorTokens.LowerCaseAuthorizationDropped | cloudfoundry-client-spring/src/main/java/org/cloudfoundry/reactor/uaa/tokens/ReactorTokens.java:126-133 | A lower-case `authorization` header the base class prepared is dropped by every grant except the one-time-passcode post, which replaces it with the request's credentials. |
| ReactorTokens.GrantAuthorization | cloudfoundry-client-spring/src/main/java/org/cloudfoundry/reactor/uaa/tokens/ReactorTokens.java:71-135 | Of all grants, only the one-time-passcode post carries Authorization, with the request's credentials; every other grant sends none. check authenticates with the configured credentials, and every grant declares a form body. |
| ClientV3Operations.AugmentedUri | cloudfoundry-client-spring/src/main/java/org/cloudfoundry/reactor/client/v3/AbstractClientV3Operations.java:80-86 | Only the endpoint's transformer adds path segments. The query is the filter parameters, then the query parameters, then the endpoint's own, each group in its own order. |
| ClientV3Operations.Prepare | cloudfoundry-client-spring/src/main/java/org/cloudfoundry/reactor/client/v3/AbstractClientV3Operations.java:42-78 | Each wrapper's URI comes from the augmenter. delete, patch, post and put send the request object as the body, both gets send none, and the multipart post sends only the multipart body. Only the untyped get returns the raw response. |
| ClientV3Operations.Translate | cloudfoundry-client-spring/src/main/java/org/cloudfoundry/reactor/client/v3/AbstractClientV3Operations.java:42-45 | An HTTP failure becomes what the exception builder makes of it. Successes and all other failures are left unchanged. |
| ClientV3Operations.Invoke | cloudfoundry-client-spring/src/main/java/org/cloudfoundry/reactor/client/v3/AbstractClientV3Operations.java:42-78 | A wrapper sends its verb to the augmented URI. Only an HTTP failure of the transport is rebuilt by the exception builder; anything else comes back as the transport gave it. |
| ClientV3Operations.SameUri | cloudfoundry-client-spring/src/main/java/org/cloudfoundry/reactor/client/v3/AbstractClientV3Operations.java:42-78 | All seven wrappers build the same URI from the same request and transformer. |
| ClientV3Operations.GetVariants | cloudfoundry-client-spring/src/main/java/org/cloudfoundry/reactor/client/v3/AbstractClientV3Operations.java:47-55 | The typed and untyped get send the same exchange and differ only in decoding. |
| ClientV3Operations.EndpointParamsLast | cloudfoundry-client-spring/src/main/java/org/cloudfoundry/reactor/client/v3/AbstractClientV3Operations.java:80-86 | In every wrapper's query, the filter parameters occupy the first positions, the query parameters the next ones and the endpoint's own parameters the rest. |

## Left out

- No separate lemma for "the `UnbindServiceRequest` constructor stores both names unchanged and `isValid` does not modify the request". Requests are immutable datatype values here, so both hold by construction. Likewise, `bind` and `unbind` completing with no value is the `()` result type of `Services.Bind` and `Services.Unbind`.
- Page walking (`PaginationUtils`): a collection is the flat sequence of its resources. Page boundaries, page numbers and `resultsPerPage` are not modelled.
- Server-side filtering is modelled as equality on the filtered fields. How the v2 API matches names is not part of this model.
- Mono.when concurrency:
  - The parallel lookups in `bind` and `unbind` are run in source order, service instance first, then application.
  - When both names are missing, the model promises only that the error is one of the two "does not exist" messages. It makes no claim about the call trace in that case.
  - Subscription, `after()` and scheduling are not modelled.
- `ExceptionUtils.convert` is not part of this model. `DefaultServices` uses it, and it is assumed to rewrite only the empty-result error, as `ExceptionUtils.replace` and `otherwise(NoSuchElementException.class, ...)` do elsewhere.
- `ValidationUtils` is not part of this model. Its exception text is assumed to be "Request is invalid: " followed by the messages joined with ", ". Only the one-message case is pinned by a test.
- `isValid` of `BindServiceRequest`, `CreateDomainRequest`, `CreateSharedDomainRequest`, `DeleteServiceBrokerRequest` and the v2 client `ListDomainsRequest` is not part of this model. The operations take the request's validation result as a parameter.
- Domains.ListAsWritten: `list` receives the v2 client `ListDomainsRequest`, not the operations request of the same name. The model passes the operations request instead, because it has the same `names` and `owningOrganizationIds` fields, and takes the v2 request's validation result as `verdict`.
- Domains.List: the same stand-in for the v2 client request as in `Domains.ListAsWritten`.
- Domains.CreateSharedWithoutDomain: the modelled request always holds a domain string. "No domain" is represented only by the validation message the request's own check would give, passed in as the verdict.
- Services.Bind: the space id is taken as already resolved. In the source it is a `Mono<String>` joined with validation (DefaultServices.java:54). If it fails, the operation fails with its error. If it completes empty, the operation completes with no call. Neither case is modelled.
- Services.Unbind: the space id is taken as already resolved, as for `Services.Bind` (DefaultServices.java:68).
- Services.UnbindAsWritten: the space id is taken as already resolved, as for `Services.Bind`.
- Routing.Apply: every path segment is kept as given. Spring's `UriComponentsBuilder.pathSegment` drops a segment without text (empty or whitespace only). The two agree whenever every segment has text. An empty or blank domain id therefore is not modelled as the source builds it.
- Routing.PathTargets: states exactly the given segments, which is the built path only when every segment has text, as for `Routing.Apply`.
- Routing.PathAndQueryTargets: keeps blank segments, as for `Routing.Apply`.
- ReactorDomains.Targets: holds for the source only for domain ids with text. With a blank id, get, delete and listSpaces build `/v2/domains` or `/v2/domains/spaces`, because the blank segment is dropped.
- ReactorDomains.RoutesDistinct: holds for the source only for domain ids with text. With a blank id, get builds the same request as list, and listSpaces the same as get with id "spaces".
- ReactorDomains.RouteResolves: for a blank domain id, the source's request would read back as another endpoint, as explained for `ReactorDomains.RoutesDistinct`.
- ReactorDomains.Resolve: reads back a URI with a blank segment, which the source never builds, as for `Routing.Apply`.
- ClientV3Operations.AugmentedUri: the path is the transformer's segments including blank ones, as for `Routing.Apply`.
- ClientV3Operations.Prepare: its path clause keeps blank segments, as for `Routing.Apply`.
- Routing.Apply: the query is a flat list in call order. Spring's `UriComponentsBuilder.queryParam` collects values in a multi-value map and renders all values of a key together, at that key's first position. The two agree whenever the values of each key are added consecutively. The route tables here never repeat a key.
- Routing.PathAndQueryTargets: states the flat, call-order query, so it matches the rendered URI only when the values of each key are added consecutively, as for `Routing.Apply`.
- ClientV3Operations.AugmentedUri: the filter, query and endpoint parameters are concatenated in that order. When a key repeats across the groups, Spring renders its values together at that key's first position, which the model does not do.
- ClientV3Operations.EndpointParamsLast: the endpoint's parameters come last in the flat query. In the rendered URI that holds only when the endpoint repeats no key the request already added, as for `ClientV3Operations.AugmentedUri`.
- Failure of the final create or delete call itself: in the source such a failure fails the operation. The model treats the call as succeeding once it is issued.
- `bind` parameters are `Map<String, Object>` in the source. They are modelled as a map from strings to strings and passed through unchanged.
- `FilterBuilder` and `QueryBuilder` are not part of this model. They are parameters that render a request as query parameters, and they are assumed to add only query parameters.
- `CloudFoundryExceptionBuilder` is not part of this model. It is the `build` parameter.
- `basicAuth` is not part of this model. It is assumed to set, rather than add, the Authorization header, and the encoded credentials are represented by the pair itself.
- `AuthorizationProvider` and the base classes' own header handling are not modelled. `ReactorTokens.Send` starts from whatever outbound request the base class prepared.
- HTTP transport, Netty, JSON serialisation, the multipart encoder and the root URI are not modelled. The transport is the `send` parameter of `ClientV3Operations.Invoke`, and URIs are relative to the root.
- Services.ResolveBoth: with the service missing and the application list failing, the parallel lookups may report either failure, so the contract says nothing about that case.
- Services.Bind: the same case is left open, as for `Services.ResolveBoth`.
- Services.UnbindNames: the same case is left open, as for `Services.ResolveBoth`.
- Services.Unbind: the same case is left open, as for `Services.ResolveBoth`.
- ReactorDomains.Targets: each target is the verb and URI built by the endpoint's own URI transformer. The v2 base class also passes the request to its URI augmenter, which adds the request's own query parameters (the list request's page, for one). That augmenter is not part of this model, so the request-derived part of the query is not modelled.
- ReactorDomains.Resolve: reads back only the transformer's part of the URI, for the reason given for `ReactorDomains.Targets`.
- ReactorEnvironmentVariableGroups.Resolve: reads back only the transformer's part of the URI, for the reason given for `ReactorDomains.Targets`.
- ReactorTokens.PlainTargets: the UAA base class's URI augmenter also receives check's request (ReactorTokens.java:73). The request-derived query it adds is not modelled.
- ReactorTokens.GrantTarget: `getUriAugmenter` (ReactorTokens.java:127) also adds the request's own query parameters to the URI. The UAA base class that does this is not part of this model, so the contract states only the grant parameters the transformer appends.
- ReactorTokens.Resolve: reads back only the transformers' part of the request, for the reasons given for `ReactorTokens.PlainTargets` and `ReactorTokens.GrantTarget`.

## Findings

| source | as written | input that shows it | evidently intended | confidence | as-written member | corrected member |
|---|---|---|---|---|---|---|
| cloudfoundry-operations/src/main/java/org/cloudfoundry/operations/services/DefaultServices.java:101 | The "no binding" template has one `%s` but is given the application id and the service instance id. The formatter drops the second argument, so the message ends in "and serviceInstanceId" with no id. | An unbind where application "app-1" resolves but has no binding to instance "si-1" or to "si-2": both give the same message. | A second `%s`, so that the message names the service instance id too. | medium, not executed | Services.UnbindAsWritten, Services.UnbindAsWrittenLosesInstance, Services.BindingMissingAsWritten, Services.BindingMissingAsWrittenDropsInstance | Services.Unbind, Services.BindingMissing, Services.BindingMissingNamesInstance |
| cloudfoundry-operations/src/main/java/org/cloudfoundry/operations/domains/DefaultDomains.java:72-78 | `getDomains` builds the client list request with only the page, so the request's `names` and `owningOrganizationIds` filters are never forwarded. The tests at DefaultDomainsTest.java:87-106 expect both filters on the client request. | Listing with names ["a"] against a server holding only domain "b" returns "b". | Forward the names and owning organization ids as the v2 request's filters. | medium, not executed | Domains.ListAsWritten, Domains.ListAsWrittenReturnsUnrequested, Domains.ListAsWrittenIgnoresFilters | Domains.List, Domains.ListUnfilteredAgrees |

=== FILE: client.dfy ===
/** The Cloud Foundry v2 client as the operations layer sees it: an immutable
    snapshot of the server's collections, the calls an operation issues, and the
    `single()` step that turns a lookup into one resource. Pagination is already
    flattened: a listing is the whole sequence of resources, in server order. */
module Client {
  import opened Results
  import opened Errors

  /** A v2 resource: metadata id plus entity. */
  datatype Resource<E> = Resource(id: string, entity: E)

  datatype ApplicationEntity = ApplicationEntity(name: string, spaceId: string)
  datatype ServiceInstanceEntity = ServiceInstanceEntity(name: string, spaceId: string, userProvided: bool)
  datatype ServiceBindingEntity = ServiceBindingEntity(applicationId: string, serviceInstanceId: string)
  datatype OrganizationEntity = OrganizationEntity(name: string)
  datatype DomainEntity = DomainEntity(name: string, owningOrganizationId: Option<string>)
  datatype ServiceBrokerEntity = ServiceBrokerEntity(name: string, brokerUrl: string)
  datatype StackEntity = StackEntity(name: string, description: string)

  /** A collection on the server: its resources in server order, or the failure
      every list request on it ends with. */
  datatype Listing<T> = Listing(items: seq<T>) | Unavailable(failure: Error)

  datatype Server = Server(
    applications: Listing<Resource<ApplicationEntity>>,
    serviceInstances: Listing<Resource<ServiceInstanceEntity>>,
    serviceBindings: Listing<Resource<ServiceBindingEntity>>,
    organizations: Listing<Resource<OrganizationEntity>>,
    domains: Listing<Resource<DomainEntity>>,
    serviceBrokers: Listing<Resource<ServiceBrokerEntity>>,
    stacks: Listing<Resource<StackEntity>>)

  /** One request issued to the client, with the arguments that identify it
      (the page number is left out: pagination is flattened). */
  datatype Call =
    | ListSpaceApplications(spaceId: string, name: string)
    | ListSpaceServiceInstances(spaceId: string, name: string, returnUserProvided: bool)
    | ListServiceBindings(applicationId: string, serviceInstanceId: string)
    | CreateServiceBinding(applicationId: string, serviceInstanceId: string, parameters: map<string, string>)
    | DeleteServiceBinding(serviceBindingId: string)
    | ListOrganizations(organizationName: string)
    | ListDomains(names: seq<string>, owningOrganizationIds: seq<string>)
    | CreatePrivateDomain(domainName: string, owningOrganizationId: string)
    | CreateSharedDomain(sharedDomainName: string)
    | ListServiceBrokers(brokerName: Option<string>)
    | DeleteServiceBroker(serviceBrokerId: string)
    | ListStacks(stackName: Option<string>)

  /** What an operation did: the calls it issued, in order, and how it ended. */
  datatype Outcome<T> = Outcome(calls: seq<Call>, result: Result<T, Error>)

  /** True when the call changes the server. */
  predicate IsWrite(c: Call)
  {
    c.CreateServiceBinding? || c.DeleteServiceBinding? || c.CreatePrivateDomain?
    || c.CreateSharedDomain? || c.DeleteServiceBroker?
  }

  /** A trace that leaves the server unchanged. */
  predicate ReadOnly(calls: seq<Call>)
  {
    forall i :: 0 <= i < |calls| ==> !IsWrite(calls[i])
  }

  /** A trace whose only write is its last call, `write`. */
  predicate EndsWithOnlyWrite(calls: seq<Call>, write: Call)
  {
    && 0 < |calls|
    && calls[|calls| - 1] == write
    && IsWrite(write)
    && ReadOnly(calls[..|calls| - 1])
  }

  lemma ReadOnlyAppend(a: seq<Call>, b: seq<Call>)
    ensures ReadOnly(a + b) <==> ReadOnly(a) && ReadOnly(b)
  {
    if ReadOnly(a) && ReadOnly(b) {
      forall i | 0 <= i < |a + b| ensures !IsWrite((a + b)[i]) {
        if i >= |a| {
          assert (a + b)[i] == b[i - |a|];
        }
      }
    }
    if ReadOnly(a + b) {
      forall i | 0 <= i < |a| ensures !IsWrite(a[i]) {
        assert (a + b)[i] == a[i];
      }
      forall i | 0 <= i < |b| ensures !IsWrite(b[i]) {
        assert (a + b)[|a| + i] == b[i];
      }
    }
  }

  /** A read-only prefix keeps a trace's single final write single. */
  lemma EndsWithOnlyWriteAfter(a: seq<Call>, b: seq<Call>, write: Call)
    requires ReadOnly(a) && EndsWithOnlyWrite(b, write)
    ensures EndsWithOnlyWrite(a + b, write)
  {
    assert (a + b)[..|a + b| - 1] == a + b[..|b| - 1];
    ReadOnlyAppend(a, b[..|b| - 1]);
  }

  /** Each resource mapped through `f`, in the same order. */
  function Project<A, B>(items: seq<A>, f: A -> B): (r: seq<B>)
    ensures |r| == |items|
    ensures forall i :: 0 <= i < |items| ==> r[i] == f(items[i])
  {
    if |items| == 0 then [] else [f(items[0])] + Project(items[1..], f)
  }

  /** The resources of a sequence that satisfy `keep`, in their original order. */
  function Select<T>(items: seq<T>, keep: T -> bool): (r: seq<T>)
    ensures |r| <= |items|
    ensures forall x :: x in r ==> x in items && keep(x)
    ensures forall x :: x in items && keep(x) ==> x in r
  {
    if |items| == 0 then []
    else (if keep(items[0]) then [items[0]] else []) + Select(items[1..], keep)
  }

  /** The answer to a list request: the matching resources, or the collection's failure. */
  function Query<T>(listing: Listing<T>, keep: T -> bool): (r: Result<seq<T>, Error>)
    ensures listing.Unavailable? <==> r.Err?
    ensures r.Err? ==> r.error == listing.failure
    ensures r.Ok? ==> r.value == Select(listing.items, keep)
  {
    match listing
    case Listing(items) => Ok(Select(items, keep))
    case Unavailable(e) => Err(e)
  }

  /** `single()`: exactly one element succeeds; none and several are distinct errors. */
  function Single<T>(items: seq<T>): (r: Result<T, Error>)
    ensures r.Ok? <==> |items| == 1
    ensures r.Ok? ==> r.value == items[0]
    ensures |items| == 0 <==> r == Err(NoSuchElement)
    ensures |items| > 1 <==> r == Err(TooManyElements)
  {
    if |items| == 0 then Err(NoSuchElement)
    else if |items| == 1 then Ok(items[0])
    else Err(TooManyElements)
  }

  /** The error handler of a lookup: only the empty-result error is replaced,
      every other failure propagates unchanged. */
  function ReplaceNoSuchElement<T>(r: Result<T, Error>, replacement: Error): (o: Result<T, Error>)
    ensures r.Ok? ==> o == r
    ensures r.Err? && r.error != NoSuchElement ==> o == r
    ensures r == Err(NoSuchElement) ==> o == Err(replacement)
  {
    if r == Err(NoSuchElement) then Err(replacement) else r
  }

  /** List, require exactly one match, rewrite "none" into `missing`. */
  function LookupSingle<T>(listing: Listing<T>, keep: T -> bool, missing: Error): (r: Result<T, Error>)
    ensures listing.Unavailable? ==> r == Err(listing.failure) || (listing.failure == NoSuchElement && r == Err(missing))
    ensures listing.Listing? && |Select(listing.items, keep)| == 0 ==> r == Err(missing)
    ensures listing.Listing? && |Select(listing.items, keep)| > 1 ==> r == Err(TooManyElements)
    ensures r.Ok? <==> listing.Listing? && |Select(listing.items, keep)| == 1
    ensures r.Ok? ==> r.value in listing.items && keep(r.value)
  {
    var single := match Query(listing, keep)
      case Ok(found) => Single(found)
      case Err(e) => Err(e);
    ReplaceNoSuchElement(single, missing)
  }
}

=== FILE: client_v3.dfy ===
/** The verb wrappers every v3 client operation goes through: how each one
    builds its URI from the request, which body it sends, and which failures
    it translates. */
module ClientV3Operations {
  import opened Results
  import opened Routing

  /** The wrappers: `get` comes typed (decoded) and untyped (raw inbound), and
      `post` comes with the request as body or with a multipart transformer. */
  datatype Operation = Delete | Get | GetRaw | Patch | Post | PostMultipart | Put

  /** The body an exchange sends. */
  datatype Body<R> = NoBody | RequestBody(request: R) | MultipartBody

  /** Whether the response is decoded into the response type or handed back
      as the raw inbound response. */
  datatype Decoding = Decoded | Raw

  /** What a wrapper hands the transport. */
  datatype Exchange<R> = Exchange(verb: Verb, uri: Uri, body: Body<R>, decoding: Decoding)

  /** A failed exchange: an HTTP error response, the error it was translated
      to, or any other failure of the transport. */
  datatype Failure =
    | HttpFailure(status: int, payload: string)
    | CloudFoundryFailure(code: int, description: string, errorCode: string)
    | OtherFailure(description: string)

  function VerbOf(op: Operation): Verb
  {
    match op
    case Delete => DELETE
    case Get => GET
    case GetRaw => GET
    case Patch => PATCH
    case Post => POST
    case PostMultipart => POST
    case Put => PUT
  }

  /** The wrappers that send the request object itself as the body. */
  predicate SendsRequest(op: Operation)
  {
    op.Delete? || op.Patch? || op.Post? || op.Put?
  }

  /** `getUriAugmenter`: the builder calls of the request's filter parameters,
      then of its query parameters, then the endpoint's own transformer. The
      filter and query builders are given as the parameters they render. */
  function Augmenter<R>(filters: R -> seq<Param>, queries: R -> seq<Param>, request: R, transform: seq<Step>): seq<Step>
  {
    QuerySteps(filters(request)) + QuerySteps(queries(request)) + transform
  }

  /** The URI the augmenter builds: only the endpoint adds path segments, and
      the query holds the filter parameters, then the query parameters, then
      the endpoint's own, each group in its own order. */
  function AugmentedUri<R>(filters: R -> seq<Param>, queries: R -> seq<Param>, request: R, transform: seq<Step>): (u: Uri)
    ensures u.segments == SegmentsOf(transform)
    ensures u.query == filters(request) + queries(request) + ParamsOf(transform)
  {
    var f := QuerySteps(filters(request));
    var q := QuerySteps(queries(request));
    SegmentsOfAppend(f, q);
    SegmentsOfAppend(f + q, transform);
    ParamsOfAppend(f, q);
    ParamsOfAppend(f + q, transform);
    Apply(Augmenter(filters, queries, request, transform), Root)
  }

  /** The exchange a wrapper sends for a request and an endpoint transformer. */
  function Prepare<R>(op: Operation, filters: R -> seq<Param>, queries: R -> seq<Param>, request: R, transform: seq<Step>): (x: Exchange<R>)
    ensures x.verb == VerbOf(op)
    ensures x.uri.segments == SegmentsOf(transform)
    ensures x.uri.query == filters(request) + queries(request) + ParamsOf(transform)
    ensures x.body.RequestBody? <==> SendsRequest(op)
    ensures x.body.RequestBody? ==> x.body.request == request
    ensures op.Get? || op.GetRaw? ==> x.body.NoBody?
    ensures op.PostMultipart? <==> x.body.MultipartBody?
    ensures x.decoding.Raw? <==> op.GetRaw?
  {
    var body := if SendsRequest(op) then RequestBody(request) else if op.PostMultipart? then MultipartBody else NoBody;
    Exchange(VerbOf(op), AugmentedUri(filters, queries, request, transform), body, if op.GetRaw? then Raw else Decoded)
  }

  /** `otherwise(HttpException.class, CloudFoundryExceptionBuilder::build)`: an
      HTTP failure becomes whatever the builder makes of it; anything else is
      left as it is. */
  function Translate<V>(r: Result<V, Failure>, build: (int, string) -> Failure): (t: Result<V, Failure>)
    ensures r.Ok? ==> t == r
    ensures r.Err? && r.error.HttpFailure? ==> t == Err(build(r.error.status, r.error.payload))
    ensures r.Err? && !r.error.HttpFailure? ==> t == r
  {
    match r
    case Ok(_) => r
    case Err(HttpFailure(status, payload)) => Err(build(status, payload))
    case Err(_) => r
  }

  /** A wrapper call: the exchange it prepares, and the transport's answer to
      it after translation. The transport and the exception builder are
      parameters. */
  function Invoke<R, V>(op: Operation, filters: R -> seq<Param>, queries: R -> seq<Param>, request: R, transform: seq<Step>,
                        send: Exchange<R> -> Result<V, Failure>, build: (int, string) -> Failure): (r: (Exchange<R>, Result<V, Failure>))
    ensures r.0.verb == VerbOf(op)
    ensures r.0.uri == AugmentedUri(filters, queries, request, transform)
    ensures send(r.0).Ok? ==> r.1 == send(r.0)
    ensures send(r.0).Err? && send(r.0).error.HttpFailure? ==> r.1 == Err(build(send(r.0).error.status, send(r.0).error.payload))
    ensures send(r.0).Err? && !send(r.0).error.HttpFailure? ==> r.1 == send(r.0)
  {
    var x := Prepare(op, filters, queries, request, transform);
    (x, Translate(send(x), build))
  }

  /** Every wrapper builds the same URI for the same request and transformer. */
  lemma SameUri<R>(op: Operation, other: Operation, filters: R -> seq<Param>, queries: R -> seq<Param>, request: R, transform: seq<Step>)
    ensures Prepare(op, filters, queries, request, transform).uri == Prepare(other, filters, queries, request, transform).uri
  {
    var u := Prepare(op, filters, queries, request, transform).uri;
    var w := Prepare(other, filters, queries, request, transform).uri;
    assert u == Uri(u.segments, u.query) && w == Uri(w.segments, w.query);
  }

  /** The typed and untyped `get` differ only in whether the response is decoded. */
  lemma GetVariants<R>(filters: R -> seq<Param>, queries: R -> seq<Param>, request: R, transform: seq<Step>)
    ensures Prepare(GetRaw, filters, queries, request, transform) == Prepare(Get, filters, queries, request, transform).(decoding := Raw)
  {
    SameUri(GetRaw, Get, filters, queries, request, transform);
  }

  /** The endpoint's own query parameters come after every filter and query
      parameter of the request, whatever the endpoint adds. */
  lemma EndpointParamsLast<R>(op: Operation, filters: R -> seq<Param>, queries: R -> seq<Param>, request: R, transform: seq<Step>)
    ensures var q := Prepare(op, filters, queries, request, transform).uri.query;
      && q[..|filters(request)|] == filters(request)
      && q[|filters(request)|..|filters(request)| + |queries(request)|] == queries(request)
      && q[|filters(request)| + |queries(request)|..] == ParamsOf(transform)
  {
  }
}

=== FILE: domains.dfy ===
/** Creating private and shared domains and listing domains. */
module Domains {
  import opened Results
  import opened Errors
  import opened Validation
  import opened Client
  import opened ListDomainsRequests

  /** The fields of the create request the operation reads; its own `isValid`
      check is supplied by the caller as a `ValidationResult`. */
  datatype CreateDomainRequest = CreateDomainRequest(domain: string, organization: string)

  /** The field of the shared-domain request the operation reads. */
  datatype CreateSharedDomainRequest = CreateSharedDomainRequest(domain: string)

  /** The summary of a domain handed to callers of `list`. */
  datatype Domain = Domain(domainId: string, domainName: string, owningOrganizationId: Option<string>)

  /** The server-side filter of the organization list by name. */
  function OrganizationFilter(name: string): Resource<OrganizationEntity> -> bool
  {
    (o: Resource<OrganizationEntity>) => o.entity.name == name
  }

  function MatchingOrganizations(server: Server, name: string): seq<Resource<OrganizationEntity>>
  {
    if server.organizations.Listing? then Select(server.organizations.items, OrganizationFilter(name)) else []
  }

  /** The organization with that name, which must be unique. */
  function GetOrganization(server: Server, organization: string): (r: Result<Resource<OrganizationEntity>, Error>)
    ensures r.Ok? <==> server.organizations.Listing? && |MatchingOrganizations(server, organization)| == 1
    ensures r.Ok? ==> r.value == MatchingOrganizations(server, organization)[0] && r.value.entity.name == organization
    ensures server.organizations.Listing? && |MatchingOrganizations(server, organization)| == 0
      ==> r == Err(IllegalArgument("Organization " + organization + " does not exist"))
    ensures server.organizations.Listing? && |MatchingOrganizations(server, organization)| > 1
      ==> r == Err(TooManyElements)
    ensures server.organizations.Unavailable? && server.organizations.failure != NoSuchElement
      ==> r == Err(server.organizations.failure)
  {
    LookupSingle(server.organizations, OrganizationFilter(organization), DoesNotExist("Organization ", organization))
  }

  /** Create a private domain owned by the named organization. */
  function Create(server: Server, request: CreateDomainRequest, verdict: ValidationResult): (o: Outcome<()>)
    ensures verdict.Status() == Invalid ==> o == Outcome([], Err(RequestInvalid(verdict.messages)))
    ensures o.result.Ok? <==>
      verdict.Status() == Valid && server.organizations.Listing? && |MatchingOrganizations(server, request.organization)| == 1
    ensures o.result.Ok? ==> o.calls == [ListOrganizations(request.organization),
      CreatePrivateDomain(request.domain, MatchingOrganizations(server, request.organization)[0].id)]
    ensures o.result.Err? ==> ReadOnly(o.calls)
    ensures verdict.Status() == Valid && server.organizations.Listing? && |MatchingOrganizations(server, request.organization)| == 0
      ==> o.result == Err(IllegalArgument("Organization " + request.organization + " does not exist"))
    ensures verdict.Status() == Valid && server.organizations.Unavailable? && server.organizations.failure != NoSuchElement
      ==> o.result == Err(server.organizations.failure)
  {
    match Validate(request, verdict)
    case Err(e) => Outcome([], Err(e))
    case Ok(valid) =>
      var lookup := ListOrganizations(valid.organization);
      match GetOrganization(server, valid.organization)
      case Err(e) => Outcome([lookup], Err(e))
      case Ok(organization) => Outcome([lookup, CreatePrivateDomain(valid.domain, organization.id)], Ok(()))
  }

  /** Create a shared domain with the requested name. */
  function CreateShared(request: CreateSharedDomainRequest, verdict: ValidationResult): (o: Outcome<()>)
    ensures verdict.Status() == Invalid ==> o == Outcome([], Err(RequestInvalid(verdict.messages)))
    ensures verdict.Status() == Valid ==> o == Outcome([CreateSharedDomain(request.domain)], Ok(()))
  {
    match Validate(request, verdict)
    case Err(e) => Outcome([], Err(e))
    case Ok(valid) => Outcome([CreateSharedDomain(valid.domain)], Ok(()))
  }

  /** Given the validation message "domain must be specified" (what the
      request's own check reports when the domain is missing), `createShared`
      issues no call and fails with the text the caller sees. */
  lemma CreateSharedWithoutDomain(request: CreateSharedDomainRequest)
    ensures var o := CreateShared(request, ValidationResult(["domain must be specified"]));
      && o.calls == []
      && o.result.Err?
      && InvalidRequestText(o.result.error.messages) == "Request is invalid: domain must be specified"
  {
  }

  /** The summary of one domain resource. */
  function ToDomain(resource: Resource<DomainEntity>): (d: Domain)
    ensures d.domainId == resource.id
    ensures d.domainName == resource.entity.name
    ensures d.owningOrganizationId == resource.entity.owningOrganizationId
  {
    Domain(resource.id, resource.entity.name, resource.entity.owningOrganizationId)
  }

  /** The resource a summary was taken from. */
  function FromDomain(d: Domain): Resource<DomainEntity>
  {
    Resource(d.domainId, DomainEntity(d.domainName, d.owningOrganizationId))
  }

  /** The summary keeps every field of the resource, none swapped. */
  lemma ToDomainRoundTrip(resource: Resource<DomainEntity>, d: Domain)
    ensures FromDomain(ToDomain(resource)) == resource
    ensures ToDomain(FromDomain(d)) == d
  {
  }

  /** The server-side filter of the domain list by name and owning organization:
      an empty list puts no constraint on its field. */
  function DomainFilter(names: seq<string>, owningOrganizationIds: seq<string>): Resource<DomainEntity> -> bool
  {
    (d: Resource<DomainEntity>) =>
      && (|names| == 0 || d.entity.name in names)
      && (|owningOrganizationIds| == 0 ||
          (d.entity.owningOrganizationId.Some? && d.entity.owningOrganizationId.value in owningOrganizationIds))
  }

  /** `list` as the source writes it: the request is validated, then the client
      is asked for every domain, page by page, with no filter at all. The
      request `list` receives is the client's own list request, whose check is
      supplied as `verdict`; the operations request stands in for its fields. */
  function ListAsWritten(server: Server, request: ListDomainsRequest, verdict: ValidationResult): (o: Outcome<seq<Domain>>)
    ensures verdict.Status() == Invalid ==> o == Outcome([], Err(RequestInvalid(verdict.messages)))
    ensures verdict.Status() == Valid ==> o.calls == [ListDomains([], [])]
    ensures o.result.Err? <==> verdict.Status() == Invalid || server.domains.Unavailable?
    ensures verdict.Status() == Valid && o.result.Err? ==> o.result.error == server.domains.failure
    ensures o.result.Ok? ==> o.result.value == Project(server.domains.items, ToDomain)
  {
    match Validate(request, verdict)
    case Err(e) => Outcome([], Err(e))
    case Ok(_) =>
      match Query(server.domains, DomainFilter([], []))
      case Err(e) => Outcome([ListDomains([], [])], Err(e))
      case Ok(resources) =>
        assert resources == server.domains.items by { SelectAll(server.domains.items, DomainFilter([], [])); }
        Outcome([ListDomains([], [])], Ok(Project(resources, ToDomain)))
  }

  /** Selecting with a filter every resource passes keeps the sequence. */
  lemma {:induction false} SelectAll<T>(items: seq<T>, keep: T -> bool)
    requires forall x :: x in items ==> keep(x)
    ensures Select(items, keep) == items
  {
    if |items| != 0 {
      assert items == [items[0]] + items[1..];
      SelectAll(items[1..], keep);
    }
  }

  /** As written, the names and owning organization ids of the request change
      nothing: two requests that differ only in their filters list the same domains. */
  lemma ListAsWrittenIgnoresFilters(server: Server, r1: ListDomainsRequest, r2: ListDomainsRequest, verdict: ValidationResult)
    ensures ListAsWritten(server, r1, verdict) == ListAsWritten(server, r2, verdict)
  {
  }

  /** A request for the domain "a" answered with the domain "b". */
  lemma ListAsWrittenReturnsUnrequested()
    ensures var server := Server(Listing([]), Listing([]), Listing([]), Listing([]),
                                 Listing([Resource("b-id", DomainEntity("b", None))]), Listing([]), Listing([]));
      ListAsWritten(server, ListDomainsRequest(Paging(None, None, None), ["a"], []), ValidationResult([])).result
        == Ok([Domain("b-id", "b", None)])
  {
    var items := [Resource("b-id", DomainEntity("b", None))];
    assert Project(items, ToDomain) == [Domain("b-id", "b", None)];
  }

  /** `list` with the request's filters forwarded to the client: the domains
      the filters admit, each as its summary, in server order. */
  function List(server: Server, request: ListDomainsRequest, verdict: ValidationResult): (o: Outcome<seq<Domain>>)
    ensures verdict.Status() == Invalid ==> o == Outcome([], Err(RequestInvalid(verdict.messages)))
    ensures verdict.Status() == Valid ==> o.calls == [ListDomains(request.names, request.owningOrganizationIds)]
    ensures o.result.Err? <==> verdict.Status() == Invalid || server.domains.Unavailable?
    ensures verdict.Status() == Valid && o.result.Err? ==> o.result.error == server.domains.failure
    ensures o.result.Ok? ==>
      var admitted := Select(server.domains.items, DomainFilter(request.names, request.owningOrganizationIds));
      && |o.result.value| == |admitted|
      && forall i :: 0 <= i < |admitted| ==> o.result.value[i] == ToDomain(admitted[i])
    ensures o.result.Ok? ==> forall d :: d in o.result.value ==>
      (|request.names| == 0 || d.domainName in request.names)
  {
    match Validate(request, verdict)
    case Err(e) => Outcome([], Err(e))
    case Ok(valid) =>
      var call := ListDomains(valid.names, valid.owningOrganizationIds);
      match Query(server.domains, DomainFilter(valid.names, valid.owningOrganizationIds))
      case Err(e) => Outcome([call], Err(e))
      case Ok(resources) =>
        var domains := Project(resources, ToDomain);
        assert forall d :: d in domains ==> (|request.names| == 0 || d.domainName in request.names) by {
          forall d | d in domains ensures |request.names| == 0 || d.domainName in request.names {
            var i :| 0 <= i < |domains| && domains[i] == d;
            assert resources[i] in resources;
          }
        }
        Outcome([call], Ok(domains))
  }

  /** With no filter in the request, the corrected `list` and the source's agree. */
  lemma ListUnfilteredAgrees(server: Server, paging: Paging, verdict: ValidationResult)
    ensures List(server, ListDomainsRequest(paging, [], []), verdict).result
         == ListAsWritten(server, ListDomainsRequest(paging, [], []), verdict).result
  {
  }
}

=== FILE: errors.dfy ===
/** The errors the operations layer can terminate with, and the message
    formatting used to build the "does not exist" messages. */
module Errors {

  /** One failure of an operation.
      - `RequestInvalid`: the request failed its own `isValid` check; no call was made.
      - `IllegalArgument`: a name lookup found nothing and the empty result was
        rewritten into a readable message.
      - `NoSuchElement`: `single()` on an empty sequence (only seen when not rewritten).
      - `TooManyElements`: `single()` on a sequence of two or more resources.
      - `ServerFailure`: a failure reported by the client layer, carried unchanged. */
  datatype Error =
    | RequestInvalid(messages: seq<string>)
    | IllegalArgument(message: string)
    | NoSuchElement
    | TooManyElements
    | ServerFailure(code: int, description: string)

  /** Messages joined with a separator, in order. */
  function Join(parts: seq<string>, separator: string): string
  {
    if |parts| == 0 then ""
    else if |parts| == 1 then parts[0]
    else parts[0] + separator + Join(parts[1..], separator)
  }

  /** The text a caller sees for a request that failed validation. */
  function InvalidRequestText(messages: seq<string>): string
  {
    "Request is invalid: " + Join(messages, ", ")
  }

  /** `String.format` restricted to the `%s` conversion: each `%s` takes the next
      argument in order; arguments left over once the template is exhausted are
      ignored, as Java's formatter ignores them. A `%s` with no argument left is
      copied verbatim (Java would throw; no template of this model reaches it). */
  function Format(template: string, args: seq<string>): string
    decreases |template|
  {
    if |template| == 0 then ""
    else if 2 <= |template| && template[0] == '%' && template[1] == 's' && 0 < |args| then
      args[0] + Format(template[2..], args[1..])
    else
      [template[0]] + Format(template[1..], args)
  }

  /** A template with no `%` is its own rendering, whatever the arguments. */
  lemma {:induction false} FormatLiteral(template: string, args: seq<string>)
    requires '%' !in template
    ensures Format(template, args) == template
    decreases |template|
  {
    if |template| != 0 {
      assert template[0] in template;
      assert '%' !in template[1..] by {
        forall i | 0 <= i < |template[1..]| ensures template[1..][i] != '%' {
          assert template[1..][i] == template[i + 1];
          assert template[i + 1] in template;
        }
      }
      FormatLiteral(template[1..], args);
    }
  }

  /** A placeholder after a `%`-free prefix is replaced by the first argument, and
      the rest of the template is rendered with the remaining arguments. */
  lemma {:induction false} FormatSplice(prefix: string, rest: string, arg: string, args: seq<string>)
    requires '%' !in prefix
    ensures Format(prefix + "%s" + rest, [arg] + args) == prefix + arg + Format(rest, args)
    decreases |prefix|
  {
    if |prefix| == 0 {
      assert prefix + "%s" + rest == "%s" + rest;
      assert ("%s" + rest)[2..] == rest;
      assert ([arg] + args)[1..] == args;
    } else {
      assert prefix[0] in prefix;
      assert '%' !in prefix[1..] by {
        forall i | 0 <= i < |prefix[1..]| ensures prefix[1..][i] != '%' {
          assert prefix[1..][i] == prefix[i + 1];
          assert prefix[i + 1] in prefix;
        }
      }
      assert (prefix + "%s" + rest)[1..] == prefix[1..] + "%s" + rest;
      FormatSplice(prefix[1..], rest, arg, args);
    }
  }

  /** The rendering of a one-placeholder template `prefix %s suffix`. */
  lemma FormatOne(prefix: string, suffix: string, arg: string, extra: seq<string>)
    requires '%' !in prefix && '%' !in suffix
    ensures Format(prefix + "%s" + suffix, [arg] + extra) == prefix + arg + suffix
  {
    FormatSplice(prefix, suffix, arg, extra);
    FormatLiteral(suffix, extra);
  }

  /** A `%`-free text extended by a `%`-free text stays `%`-free. */
  lemma LiteralConcat(a: string, b: string)
    requires '%' !in a && '%' !in b
    ensures '%' !in a + b
  {
  }

  /** The template `<kind> %s does not exist` of the "not found" messages,
      given the text before the placeholder (the kind and a space). */
  function DoesNotExistTemplate(lead: string): string
  {
    lead + "%s" + " does not exist"
  }

  /** The `IllegalArgumentException` that replaces an empty lookup: the template
      rendered with the name that was looked up. */
  function DoesNotExist(lead: string, name: string): (r: Error)
    requires '%' !in lead
    ensures r == IllegalArgument(lead + name + " does not exist")
  {
    FormatOne(lead, " does not exist", name, []);
    assert [name] + [] == [name];
    IllegalArgument(Format(DoesNotExistTemplate(lead), [name]))
  }

  /** The test-visible rendering of a single validation message. */
  lemma InvalidRequestTextSingle(message: string)
    ensures InvalidRequestText([message]) == "Request is invalid: " + message
  {
  }
}

=== FILE: list_domains_request.dfy ===
/** The request of the operations-level "list domains" call: paging fields
    inherited from the paginated request plus two filter lists. */
module ListDomainsRequests {
  import opened Results
  import opened Validation

  datatype OrderDirection = Asc | Desc

  /** How a field of a request is rendered as a filter of the v2 API. */
  datatype FilterTag = InFilter(key: string, values: seq<string>)

  /** The paging part of the request, handed unchanged to the paginated superclass. */
  datatype Paging = Paging(orderDirection: Option<OrderDirection>, page: Option<int>, resultsPerPage: Option<int>)

  datatype ListDomainsRequest = ListDomainsRequest(paging: Paging, names: seq<string>, owningOrganizationIds: seq<string>)

  /** One call on the request builder. The singular adders append one value;
      the plural adders append a whole list, as the generated builder does. */
  datatype BuilderStep =
    | SetOrderDirection(direction: OrderDirection)
    | SetPage(page: int)
    | SetResultsPerPage(resultsPerPage: int)
    | AddName(name: string)
    | AddNames(names: seq<string>)
    | AddOwningOrganizationId(id: string)
    | AddOwningOrganizationIds(ids: seq<string>)

  /** The builder's state after a sequence of calls; an untouched builder holds
      empty lists and no paging values. */
  function Build(steps: seq<BuilderStep>): ListDomainsRequest
    decreases |steps|
  {
    if |steps| == 0 then ListDomainsRequest(Paging(None, None, None), [], [])
    else
      var r := Build(steps[..|steps| - 1]);
      match steps[|steps| - 1]
      case SetOrderDirection(d) => r.(paging := r.paging.(orderDirection := Some(d)))
      case SetPage(p) => r.(paging := r.paging.(page := Some(p)))
      case SetResultsPerPage(n) => r.(paging := r.paging.(resultsPerPage := Some(n)))
      case AddName(n) => r.(names := r.names + [n])
      case AddNames(ns) => r.(names := r.names + ns)
      case AddOwningOrganizationId(o) => r.(owningOrganizationIds := r.owningOrganizationIds + [o])
      case AddOwningOrganizationIds(os) => r.(owningOrganizationIds := r.owningOrganizationIds + os)
  }

  /** The names a sequence of builder calls supplies, in call order. */
  function NamesSupplied(steps: seq<BuilderStep>): seq<string>
  {
    if |steps| == 0 then []
    else
      (match steps[0]
       case AddName(n) => [n]
       case AddNames(ns) => ns
       case _ => []) + NamesSupplied(steps[1..])
  }

  /** The owning organization ids a sequence of builder calls supplies, in call order. */
  function OwnersSupplied(steps: seq<BuilderStep>): seq<string>
  {
    if |steps| == 0 then []
    else
      (match steps[0]
       case AddOwningOrganizationId(o) => [o]
       case AddOwningOrganizationIds(os) => os
       case _ => []) + OwnersSupplied(steps[1..])
  }

  lemma {:induction false} NamesSuppliedSnoc(steps: seq<BuilderStep>, last: BuilderStep)
    ensures NamesSupplied(steps + [last]) == NamesSupplied(steps) + NamesSupplied([last])
    decreases |steps|
  {
    if |steps| == 0 {
      assert steps + [last] == [last];
    } else {
      assert (steps + [last])[0] == steps[0];
      assert (steps + [last])[1..] == steps[1..] + [last];
      NamesSuppliedSnoc(steps[1..], last);
    }
  }

  lemma {:induction false} OwnersSuppliedSnoc(steps: seq<BuilderStep>, last: BuilderStep)
    ensures OwnersSupplied(steps + [last]) == OwnersSupplied(steps) + OwnersSupplied([last])
    decreases |steps|
  {
    if |steps| == 0 {
      assert steps + [last] == [last];
    } else {
      assert (steps + [last])[0] == steps[0];
      assert (steps + [last])[1..] == steps[1..] + [last];
      OwnersSuppliedSnoc(steps[1..], last);
    }
  }

  /** The built request holds exactly the names and owning organization ids that
      were added, in insertion order, duplicates kept. */
  lemma {:induction false} BuildKeepsInsertionOrder(steps: seq<BuilderStep>)
    ensures Build(steps).names == NamesSupplied(steps)
    ensures Build(steps).owningOrganizationIds == OwnersSupplied(steps)
    decreases |steps|
  {
    if |steps| != 0 {
      var init := steps[..|steps| - 1];
      var last := steps[|steps| - 1];
      assert steps == init + [last];
      BuildKeepsInsertionOrder(init);
      NamesSuppliedSnoc(init, last);
      OwnersSuppliedSnoc(init, last);
    }
  }

  /** Paging values laid over earlier ones: a value set later wins, an unset
      one keeps the earlier value. */
  function Override(earlier: Paging, later: Paging): Paging
  {
    Paging(if later.orderDirection.Some? then later.orderDirection else earlier.orderDirection,
           if later.page.Some? then later.page else earlier.page,
           if later.resultsPerPage.Some? then later.resultsPerPage else earlier.resultsPerPage)
  }

  /** The paging value one builder call sets, if any. */
  function StepPaging(step: BuilderStep): Paging
  {
    match step
    case SetOrderDirection(d) => Paging(Some(d), None, None)
    case SetPage(p) => Paging(None, Some(p), None)
    case SetResultsPerPage(n) => Paging(None, None, Some(n))
    case _ => Paging(None, None, None)
  }

  /** The paging values a sequence of builder calls supplies: for each field,
      the value of the last call that set it. */
  function PagingSupplied(steps: seq<BuilderStep>): Paging
  {
    if |steps| == 0 then Paging(None, None, None)
    else Override(StepPaging(steps[0]), PagingSupplied(steps[1..]))
  }

  lemma {:induction false} PagingSuppliedSnoc(steps: seq<BuilderStep>, last: BuilderStep)
    ensures PagingSupplied(steps + [last]) == Override(PagingSupplied(steps), StepPaging(last))
    decreases |steps|
  {
    if |steps| == 0 {
      assert steps + [last] == [last];
      assert [last][1..] == [];
    } else {
      assert (steps + [last])[0] == steps[0];
      assert (steps + [last])[1..] == steps[1..] + [last];
      PagingSuppliedSnoc(steps[1..], last);
    }
  }

  /** The paging handed on is, field by field, the last value set on the
      builder, unchanged; a field never set stays absent. */
  lemma {:induction false} BuildPassesPaging(steps: seq<BuilderStep>)
    ensures Build(steps).paging == PagingSupplied(steps)
    decreases |steps|
  {
    if |steps| != 0 {
      var init := steps[..|steps| - 1];
      var last := steps[|steps| - 1];
      assert steps == init + [last];
      BuildPassesPaging(init);
      PagingSuppliedSnoc(init, last);
    }
  }

  /** The filter tags the request's getters declare, in declaration order. */
  function Filters(request: ListDomainsRequest): (r: seq<FilterTag>)
    ensures |r| == 2
    ensures r[0].key == "name" && r[1].key == "owning_organization_guid"
  {
    [InFilter("name", request.names), InFilter("owning_organization_guid", request.owningOrganizationIds)]
  }

  /** The filter values of a tag, looked up by key. */
  function FilterValues(tags: seq<FilterTag>, key: string): Option<seq<string>>
  {
    if |tags| == 0 then None
    else if tags[0].key == key then Some(tags[0].values)
    else FilterValues(tags[1..], key)
  }

  /** Each filter key carries the list stored in the matching field. */
  lemma FiltersCarryFields(request: ListDomainsRequest)
    ensures FilterValues(Filters(request), "name") == Some(request.names)
    ensures FilterValues(Filters(request), "owning_organization_guid") == Some(request.owningOrganizationIds)
  {
  }

  /** The request's own validity check accepts every request. */
  function IsValid(request: ListDomainsRequest): (r: ValidationResult)
    ensures r.messages == []
    ensures r.Status() == Valid
  {
    ValidationResult([])
  }
}

=== FILE: reactor_domains.dfy ===
/** The routing table of the v2 domains endpoints. */
module ReactorDomains {
  import opened Results
  import opened Routing

  datatype DomainsEndpoint =
    | Create
    | Delete(domainId: string)
    | Get(domainId: string)
    | List
    | ListSpaces(domainId: string)

  /** The verb and URI transformer each endpoint passes to the request executor. */
  function Route(e: DomainsEndpoint): Endpoint
  {
    match e
    case Create => Endpoint(POST, [PathSegments(["v2", "domains"])])
    case Delete(id) => Endpoint(DELETE, [PathSegments(["v2", "domains", id])])
    case Get(id) => Endpoint(GET, [PathSegments(["v2", "domains", id])])
    case List => Endpoint(GET, [PathSegments(["v2", "domains"])])
    case ListSpaces(id) => Endpoint(GET, [PathSegments(["v2", "domains", id, "spaces"])])
  }

  /** The endpoint a request with this verb and URI was sent to, if any: the
      server-side reading of the table. */
  function Resolve(verb: Verb, uri: Uri): (r: Option<DomainsEndpoint>)
    ensures r.Some? ==> Target(Route(r.value)) == (verb, uri)
  {
    PathTargets();
    var s := uri.segments;
    if uri.query != [] || |s| < 2 || s[0] != "v2" || s[1] != "domains" then None
    else if |s| == 2 then
      assert uri == Uri(["v2", "domains"], []);
      (if verb == POST then Some(Create) else if verb == GET then Some(List) else None)
    else if |s| == 3 then
      assert uri == Uri(["v2", "domains", s[2]], []);
      (if verb == DELETE then Some(Delete(s[2])) else if verb == GET then Some(Get(s[2])) else None)
    else if |s| == 4 && s[3] == "spaces" && verb == GET then
      assert uri == Uri(["v2", "domains", s[2], "spaces"], []);
      Some(ListSpaces(s[2]))
    else None
  }

  /** Every endpoint's request is read back as that endpoint. */
  lemma RouteResolves(e: DomainsEndpoint)
    ensures Resolve(Target(Route(e)).0, Target(Route(e)).1) == Some(e)
  {
  }

  /** No two endpoints share a verb and URI. */
  lemma RoutesDistinct(e1: DomainsEndpoint, e2: DomainsEndpoint)
    requires Target(Route(e1)) == Target(Route(e2))
    ensures e1 == e2
  {
    RouteResolves(e1);
    RouteResolves(e2);
  }

  /** The verb and path of each endpoint; none adds a query parameter. */
  lemma Targets(id: string)
    ensures Target(Route(Create)) == (POST, Uri(["v2", "domains"], []))
    ensures Target(Route(Delete(id))) == (DELETE, Uri(["v2", "domains", id], []))
    ensures Target(Route(Get(id))) == (GET, Uri(["v2", "domains", id], []))
    ensures Target(Route(List)) == (GET, Uri(["v2", "domains"], []))
    ensures Target(Route(ListSpaces(id))) == (GET, Uri(["v2", "domains", id, "spaces"], []))
  {
    PathTargets();
  }
}

=== FILE: reactor_environment_variable_groups.dfy ===
/** The routing table of the v2 environment-variable-group endpoints. */
module ReactorEnvironmentVariableGroups {
  import opened Results
  import opened Routing

  datatype Group = Running | Staging

  /** Reading a group's variables, or replacing them. */
  datatype GroupEndpoint = GetVariables(readGroup: Group) | UpdateVariables(writeGroup: Group)

  function GroupSegment(g: Group): string
  {
    match g
    case Running => "running"
    case Staging => "staging"
  }

  /** The verb and URI transformer each endpoint passes to the request executor. */
  function Route(e: GroupEndpoint): Endpoint
  {
    match e
    case GetVariables(g) => Endpoint(GET, [PathSegments(["v2", "config", "environment_variable_groups", GroupSegment(g)])])
    case UpdateVariables(g) => Endpoint(PUT, [PathSegments(["v2", "config", "environment_variable_groups", GroupSegment(g)])])
  }

  /** The endpoint a request with this verb and URI was sent to, if any. */
  function Resolve(verb: Verb, uri: Uri): (r: Option<GroupEndpoint>)
    ensures r.Some? ==> Target(Route(r.value)) == (verb, uri)
  {
    PathTargets();
    var s := uri.segments;
    if uri.query != [] || |s| != 4 || s[0] != "v2" || s[1] != "config" || s[2] != "environment_variable_groups" then None
    else
      var group := if s[3] == "running" then Some(Running) else if s[3] == "staging" then Some(Staging) else None;
      if group.None? then None
      else
        assert uri == Uri(["v2", "config", "environment_variable_groups", GroupSegment(group.value)], []);
        if verb == GET then Some(GetVariables(group.value))
        else if verb == PUT then Some(UpdateVariables(group.value))
        else None
  }

  /** Every endpoint's request is read back as that endpoint. */
  lemma RouteResolves(e: GroupEndpoint)
    ensures Resolve(Target(Route(e)).0, Target(Route(e)).1) == Some(e)
  {
  }

  /** Reading and replacing a group target the same URI and differ only in the
      verb; the two groups never share a URI. */
  lemma ReadAndUpdateShareUri(g: Group, h: Group)
    ensures Target(Route(GetVariables(g))).1 == Target(Route(UpdateVariables(g))).1
    ensures Target(Route(GetVariables(g))).0 == GET && Target(Route(UpdateVariables(g))).0 == PUT
    ensures g != h ==> Target(Route(GetVariables(g))).1 != Target(Route(GetVariables(h))).1
  {
    if g != h {
      RouteResolves(GetVariables(g));
      RouteResolves(GetVariables(h));
    }
  }

  /** The path of each endpoint. */
  lemma Targets()
    ensures Target(Route(GetVariables(Running))) == (GET, Uri(["v2", "config", "environment_variable_groups", "running"], []))
    ensures Target(Route(GetVariables(Staging))) == (GET, Uri(["v2", "config", "environment_variable_groups", "staging"], []))
    ensures Target(Route(UpdateVariables(Running))) == (PUT, Uri(["v2", "config", "environment_variable_groups", "running"], []))
    ensures Target(Route(UpdateVariables(Staging))) == (PUT, Uri(["v2", "config", "environment_variable_groups", "staging"], []))
  {
    PathTargets();
  }
}

=== FILE: reactor_tokens.dfy ===
/** The routing table of the UAA token endpoints and the header handling of
    their form posts. */
module ReactorTokens {
  import opened Results
  import opened Routing

  const Authorization := "Authorization"
  const ContentType := "Content-Type"
  const FormUrlEncoded := "application/x-www-form-urlencoded"

  /** ASCII lower case: the only folding header-name comparison applies. */
  function LowerAscii(c: char): char
  {
    if 'A' <= c <= 'Z' then (c as int + 32) as char else c
  }

  /** A header name folded to lower case, letter by letter. */
  function Fold(name: string): (r: string)
    ensures |r| == |name|
  {
    seq(|name|, i requires 0 <= i < |name| => LowerAscii(name[i]))
  }

  /** Header names are compared case-insensitively (section 3.2 of RFC 7230),
      as the outbound request's header store does for `remove` and lookup. */
  predicate SameName(a: string, b: string)
  {
    Fold(a) == Fold(b)
  }

  /** The two header names the form post touches are different names. */
  lemma AuthorizationIsNotContentType()
    ensures !SameName(Authorization, ContentType)
  {
    assert |Fold(Authorization)| != |Fold(ContentType)|;
  }

  /** A header value; `Basic` stands for the encoded client credentials that
      `basicAuth` writes, without modelling the encoding. */
  datatype HeaderValue = Text(text: string) | Basic(clientId: string, clientSecret: string)

  datatype Header = Header(name: string, value: HeaderValue)

  /** The outbound request as far as the transformers touch it: its headers in
      order and whether the body is sent chunked. */
  datatype Outbound = Outbound(headers: seq<Header>, chunked: bool)

  /** A request transformer: leave the request as it is, or set basic
      authentication from a client id and secret. */
  datatype RequestTransform = Identity | BasicAuth(clientId: string, clientSecret: string)

  /** How an endpoint sends: through the base class's verb method with a
      transformer, or as a form post with one. */
  datatype Sending = Plain(plainTransform: RequestTransform) | Form(formTransform: RequestTransform)

  /** The client credentials the token client was configured with. */
  datatype Credentials = Credentials(clientId: string, clientSecret: string)

  datatype TokenEndpoint =
    | Check
    | ByAuthorizationCode
    | ByClientCredentials
    | ByOneTimePasscode(requestClientId: string, requestClientSecret: string)
    | ByOpenId
    | ByPassword
    | GetKey
    | ListKeys
    | Refresh

  datatype TokenRoute = TokenRoute(endpoint: Endpoint, sending: Sending)

  /** The endpoints that obtain a token from `/oauth/token`. */
  predicate IsGrant(e: TokenEndpoint)
  {
    e.ByAuthorizationCode? || e.ByClientCredentials? || e.ByOneTimePasscode? || e.ByOpenId? || e.ByPassword? || e.Refresh?
  }

  /** The grant type and response type a grant asks `/oauth/token` for, as
      query parameters; the other endpoints send none. */
  function GrantQuery(e: TokenEndpoint): seq<Param>
  {
    match e
    case ByAuthorizationCode => [Param("grant_type", "authorization_code"), Param("response_type", "token")]
    case ByClientCredentials => [Param("grant_type", "client_credentials"), Param("response_type", "token")]
    case ByOneTimePasscode(_, _) => [Param("grant_type", "password"), Param("response_type", "token")]
    case ByOpenId => [Param("grant_type", "authorization_code"), Param("response_type", "id_token")]
    case ByPassword => [Param("grant_type", "password"), Param("response_type", "token")]
    case Refresh => [Param("grant_type", "refresh_token")]
    case Check => []
    case GetKey => []
    case ListKeys => []
  }

  /** The transformer a grant's form post applies: the one-time-passcode grant
      authenticates with the client credentials of its own request. */
  function GrantTransform(e: TokenEndpoint): RequestTransform
  {
    if e.ByOneTimePasscode? then BasicAuth(e.requestClientId, e.requestClientSecret) else Identity
  }

  /** The verb, URI transformer and sending of each endpoint. */
  function Route(e: TokenEndpoint, config: Credentials): TokenRoute
  {
    match e
    case Check => TokenRoute(Endpoint(POST, [PathSegments(["check_token"])]), Plain(BasicAuth(config.clientId, config.clientSecret)))
    case GetKey => TokenRoute(Endpoint(GET, [PathSegments(["token_key"])]), Plain(Identity))
    case ListKeys => TokenRoute(Endpoint(GET, [PathSegments(["token_keys"])]), Plain(Identity))
    case _ => TokenRoute(Endpoint(POST, PathAndQuery(["oauth", "token"], GrantQuery(e))), Form(GrantTransform(e)))
  }

  /** Where a route sends, and how. */
  function TokenTarget(r: TokenRoute): (Verb, Uri, Sending)
  {
    (r.endpoint.verb, Apply(r.endpoint.transform, Root), r.sending)
  }

  /** Where the endpoints that are not grants send: check posts to
      `/check_token` with basic auth from the configured credentials, and the
      key endpoints get `/token_key` and `/token_keys`. */
  lemma PlainTargets(config: Credentials)
    ensures TokenTarget(Route(Check, config)) == (POST, Uri(["check_token"], []), Plain(BasicAuth(config.clientId, config.clientSecret)))
    ensures TokenTarget(Route(GetKey, config)) == (GET, Uri(["token_key"], []), Plain(Identity))
    ensures TokenTarget(Route(ListKeys, config)) == (GET, Uri(["token_keys"], []), Plain(Identity))
  {
    PathTargets();
  }

  /** Where a grant sends: a form post to `/oauth/token` with its grant query. */
  lemma GrantTarget(e: TokenEndpoint, config: Credentials)
    requires IsGrant(e)
    ensures TokenTarget(Route(e, config)) == (POST, Uri(["oauth", "token"], GrantQuery(e)), Form(GrantTransform(e)))
  {
    PathAndQueryTargets();
  }

  /** The grant a form post to `/oauth/token` with this query and transformer
      was made for, if any. */
  function Grant(query: seq<Param>, t: RequestTransform): (r: Option<TokenEndpoint>)
    ensures r.Some? ==> IsGrant(r.value) && query == GrantQuery(r.value) && t == GrantTransform(r.value)
  {
    if |query| == 1 then
      if query[0] == Param("grant_type", "refresh_token") && t == Identity then Some(Refresh) else None
    else if |query| != 2 || query[0].key != "grant_type" || query[1].key != "response_type" then None
    else
      var grantType := query[0].value;
      var responseType := query[1].value;
      if grantType == "password" && responseType == "token" then
        match t
        case Identity => Some(ByPassword)
        case BasicAuth(id, secret) => Some(ByOneTimePasscode(id, secret))
      else if t != Identity then None
      else if grantType == "authorization_code" && responseType == "token" then Some(ByAuthorizationCode)
      else if grantType == "authorization_code" && responseType == "id_token" then Some(ByOpenId)
      else if grantType == "client_credentials" && responseType == "token" then Some(ByClientCredentials)
      else None
  }

  /** Every grant's query and transformer are read back as that grant. */
  lemma GrantResolves(e: TokenEndpoint)
    requires IsGrant(e)
    ensures Grant(GrantQuery(e), GrantTransform(e)) == Some(e)
  {
  }

  /** The endpoint that is not a grant a request was made for, if any. */
  function ResolvePlain(config: Credentials, verb: Verb, uri: Uri, sending: Sending): (r: Option<TokenEndpoint>)
    ensures r.Some? ==> TokenTarget(Route(r.value, config)) == (verb, uri, sending)
  {
    PlainTargets(config);
    if (verb, uri, sending) == (POST, Uri(["check_token"], []), Plain(BasicAuth(config.clientId, config.clientSecret))) then Some(Check)
    else if (verb, uri, sending) == (GET, Uri(["token_key"], []), Plain(Identity)) then Some(GetKey)
    else if (verb, uri, sending) == (GET, Uri(["token_keys"], []), Plain(Identity)) then Some(ListKeys)
    else None
  }

  /** The endpoint a request with this verb, URI and sending was made for, if any. */
  function Resolve(config: Credentials, verb: Verb, uri: Uri, sending: Sending): (r: Option<TokenEndpoint>)
    ensures r.Some? ==> TokenTarget(Route(r.value, config)) == (verb, uri, sending)
  {
    if !sending.Form? then ResolvePlain(config, verb, uri, sending)
    else if verb != POST || uri.segments != ["oauth", "token"] then None
    else
      var r := Grant(uri.query, sending.formTransform);
      if r.None? then None
      else
        GrantTarget(r.value, config);
        assert uri == Uri(["oauth", "token"], GrantQuery(r.value));
        r
  }

  /** Every endpoint's request is read back as that endpoint. */
  lemma RouteResolves(e: TokenEndpoint, config: Credentials)
    ensures Resolve(config, TokenTarget(Route(e, config)).0, TokenTarget(Route(e, config)).1, TokenTarget(Route(e, config)).2) == Some(e)
  {
    if IsGrant(e) {
      GrantTarget(e, config);
      GrantResolves(e);
    } else {
      PlainTargets(config);
    }
  }

  /** No two endpoints send the same verb, URI and sending. */
  lemma RoutesDistinct(e1: TokenEndpoint, e2: TokenEndpoint, config: Credentials)
    requires TokenTarget(Route(e1, config)) == TokenTarget(Route(e2, config))
    ensures e1 == e2
  {
    RouteResolves(e1, config);
    RouteResolves(e2, config);
  }

  /** Every grant is a form post to `/oauth/token` that names its grant type. */
  lemma GrantsTargetTokenEndpoint(e: TokenEndpoint, config: Credentials)
    requires IsGrant(e)
    ensures TokenTarget(Route(e, config)).0 == POST
    ensures TokenTarget(Route(e, config)).1.segments == ["oauth", "token"]
    ensures QueryValue(TokenTarget(Route(e, config)).1.query, "grant_type").Some?
    ensures TokenTarget(Route(e, config)).2.Form?
  {
    GrantTarget(e, config);
    GrantParameters(e, config);
  }

  /** The grant type and response type each grant asks for; only a refresh
      sends no response type. */
  lemma GrantParameters(e: TokenEndpoint, config: Credentials)
    requires IsGrant(e)
    ensures var q := TokenTarget(Route(e, config)).1.query;
      && (e.ByAuthorizationCode? ==> QueryValue(q, "grant_type") == Some("authorization_code") && QueryValue(q, "response_type") == Some("token"))
      && (e.ByClientCredentials? ==> QueryValue(q, "grant_type") == Some("client_credentials") && QueryValue(q, "response_type") == Some("token"))
      && (e.ByOneTimePasscode? || e.ByPassword? ==> QueryValue(q, "grant_type") == Some("password") && QueryValue(q, "response_type") == Some("token"))
      && (e.ByOpenId? ==> QueryValue(q, "grant_type") == Some("authorization_code") && QueryValue(q, "response_type") == Some("id_token"))
      && (e.Refresh? ==> QueryValue(q, "grant_type") == Some("refresh_token"))
      && (QueryValue(q, "response_type").None? <==> e.Refresh?)
  {
    GrantTarget(e, config);
    match e
    case ByAuthorizationCode => PairValues("authorization_code", "token");
    case ByClientCredentials => PairValues("client_credentials", "token");
    case ByOneTimePasscode(_, _) => PairValues("password", "token");
    case ByOpenId => PairValues("authorization_code", "id_token");
    case ByPassword => PairValues("password", "token");
    case Refresh => RefreshValues();
  }

  /** The values of a two-parameter grant query, looked up by key. */
  lemma PairValues(grantType: string, responseType: string)
    ensures QueryValue([Param("grant_type", grantType), Param("response_type", responseType)], "grant_type") == Some(grantType)
    ensures QueryValue([Param("grant_type", grantType), Param("response_type", responseType)], "response_type") == Some(responseType)
  {
    var q := [Param("grant_type", grantType), Param("response_type", responseType)];
    assert q[1..] == [Param("response_type", responseType)];
    assert "grant_type" != "response_type";
  }

  /** The refresh query names its grant type and no response type. */
  lemma RefreshValues()
    ensures QueryValue([Param("grant_type", "refresh_token")], "grant_type") == Some("refresh_token")
    ensures QueryValue([Param("grant_type", "refresh_token")], "response_type") == None
  {
    assert [Param("grant_type", "refresh_token")][1..] == [];
    assert "grant_type" != "response_type";
  }

  /** A password grant and a one-time-passcode grant share verb and URI; only
      the one-time-passcode post carries the request's own client credentials. */
  lemma PasswordAndPasscodeShareUri(config: Credentials, id: string, secret: string)
    ensures TokenTarget(Route(ByPassword, config)).0 == TokenTarget(Route(ByOneTimePasscode(id, secret), config)).0
    ensures TokenTarget(Route(ByPassword, config)).1 == TokenTarget(Route(ByOneTimePasscode(id, secret), config)).1
    ensures TokenTarget(Route(ByPassword, config)).2 == Form(Identity)
    ensures TokenTarget(Route(ByOneTimePasscode(id, secret), config)).2 == Form(BasicAuth(id, secret))
  {
  }

  /** The values of the headers with that name, in order. */
  function Named(headers: seq<Header>, name: string): seq<HeaderValue>
  {
    if |headers| == 0 then []
    else (if SameName(headers[0].name, name) then [headers[0].value] else []) + Named(headers[1..], name)
  }

  /** The headers without any header of that name, in any letter case. */
  function Without(headers: seq<Header>, name: string): (r: seq<Header>)
    ensures forall n :: SameName(n, name) ==> Named(r, n) == []
    ensures forall n :: !SameName(n, name) ==> Named(r, n) == Named(headers, n)
  {
    if |headers| == 0 then []
    else
      var rest := Without(headers[1..], name);
      var kept := if SameName(headers[0].name, name) then [] else [headers[0]];
      NamedAppend(kept, rest);
      kept + rest
  }

  lemma {:induction false} NamedAppend(a: seq<Header>, b: seq<Header>)
    ensures forall n :: Named(a + b, n) == Named(a, n) + Named(b, n)
    decreases |a|
  {
    if |a| == 0 {
      assert a + b == b;
    } else {
      assert (a + b)[0] == a[0];
      assert (a + b)[1..] == a[1..] + b;
      NamedAppend(a[1..], b);
    }
  }

  lemma NamedSingle(h: Header)
    ensures forall n :: Named([h], n) == if SameName(h.name, n) then [h.value] else []
  {
    assert [h][1..] == [];
  }

  /** The header appended after all the others. */
  function AddHeader(out: Outbound, name: string, value: HeaderValue): (r: Outbound)
    ensures forall n :: SameName(n, name) ==> Named(r.headers, n) == Named(out.headers, n) + [value]
    ensures forall n :: !SameName(n, name) ==> Named(r.headers, n) == Named(out.headers, n)
    ensures r.chunked == out.chunked
  {
    NamedAppend(out.headers, [Header(name, value)]);
    NamedSingle(Header(name, value));
    out.(headers := out.headers + [Header(name, value)])
  }

  /** A request transformer applied to an outbound request; basic authentication
      replaces any authorization header already present. */
  function ApplyTransform(t: RequestTransform, out: Outbound): (r: Outbound)
    ensures t.Identity? ==> r == out
    ensures t.BasicAuth? ==> Named(r.headers, Authorization) == [Basic(t.clientId, t.clientSecret)]
    ensures forall n :: !SameName(n, Authorization) ==> Named(r.headers, n) == Named(out.headers, n)
    ensures r.chunked == out.chunked
  {
    match t
    case Identity => out
    case BasicAuth(id, secret) =>
      AddHeader(out.(headers := Without(out.headers, Authorization)), Authorization, Basic(id, secret))
  }

  /** The outbound handling of a form post: drop the authorization header, apply
      the endpoint's transformer, declare a form body, stop chunking. */
  function PostForm(t: RequestTransform, out: Outbound): (r: Outbound)
    ensures Named(r.headers, Authorization) == (if t.Identity? then [] else [Basic(t.clientId, t.clientSecret)])
    ensures Named(r.headers, ContentType) == Named(out.headers, ContentType) + [Text(FormUrlEncoded)]
    ensures forall n :: !SameName(n, Authorization) && !SameName(n, ContentType) ==> Named(r.headers, n) == Named(out.headers, n)
    ensures !r.chunked
  {
    AuthorizationIsNotContentType();
    var stripped := out.(headers := Without(out.headers, Authorization));
    var transformed := ApplyTransform(t, stripped);
    AddHeader(transformed, ContentType, Text(FormUrlEncoded)).(chunked := false)
  }

  /** The outbound request an endpoint sends, from the one the base class prepared. */
  function Send(e: TokenEndpoint, config: Credentials, out: Outbound): (r: Outbound)
    ensures e.GetKey? || e.ListKeys? ==> r == out
    ensures e.Check? ==> Named(r.headers, Authorization) == [Basic(config.clientId, config.clientSecret)]
    ensures !IsGrant(e) ==> r.chunked == out.chunked
    ensures !IsGrant(e) ==> forall n :: !SameName(n, Authorization) ==> Named(r.headers, n) == Named(out.headers, n)
    ensures IsGrant(e) ==> !r.chunked
    ensures IsGrant(e) ==>
      Named(r.headers, Authorization) == (if e.ByOneTimePasscode? then [Basic(e.requestClientId, e.requestClientSecret)] else [])
    ensures IsGrant(e) ==> Named(r.headers, ContentType) == Named(out.headers, ContentType) + [Text(FormUrlEncoded)]
    ensures IsGrant(e) ==> forall n :: !SameName(n, Authorization) && !SameName(n, ContentType) ==> Named(r.headers, n) == Named(out.headers, n)
  {
    match Route(e, config).sending
    case Plain(t) => ApplyTransform(t, out)
    case Form(t) => PostForm(t, out)
  }

  /** Of all grants, only the one-time-passcode post authenticates, with the
      request's own client credentials; the others send no authorization at all,
      whatever the base class had set. The check endpoint authenticates with the
      configured credentials. */
  lemma GrantAuthorization(e: TokenEndpoint, config: Credentials, out: Outbound)
    ensures IsGrant(e) && !e.ByOneTimePasscode? ==> Named(Send(e, config, out).headers, Authorization) == []
    ensures e.ByOneTimePasscode? ==>
      Named(Send(e, config, out).headers, Authorization) == [Basic(e.requestClientId, e.requestClientSecret)]
    ensures e.Check? ==> Named(Send(e, config, out).headers, Authorization) == [Basic(config.clientId, config.clientSecret)]
    ensures IsGrant(e) ==> Named(Send(e, config, out).headers, ContentType) == Named(out.headers, ContentType) + [Text(FormUrlEncoded)]
  {
  }

  /** Header names differ from `Authorization` in letter case only. */
  lemma AuthorizationAnyCase()
    ensures SameName("authorization", Authorization)
  {
    assert Fold("Authorization")[0] == 'a';
    assert Fold("authorization") == Fold("Authorization");
  }

  /** A lower-case `authorization` header the base class prepared is dropped
      by every grant that does not authenticate, and replaced by the request's
      credentials in the one-time-passcode post. */
  lemma LowerCaseAuthorizationDropped(e: TokenEndpoint, config: Credentials, token: string)
    requires IsGrant(e)
    ensures var r := Send(e, config, Outbound([Header("authorization", Text(token))], true));
      Named(r.headers, "authorization")
        == (if e.ByOneTimePasscode? then [Basic(e.requestClientId, e.requestClientSecret)] else [])
  {
    AuthorizationAnyCase();
    var r := Send(e, config, Outbound([Header("authorization", Text(token))], true));
    assert Named(r.headers, "authorization") == Named(r.headers, Authorization) by {
      NamedFolds(r.headers, "authorization", Authorization);
    }
  }

  /** Names that fold alike select the same header values. */
  lemma {:induction false} NamedFolds(headers: seq<Header>, a: string, b: string)
    requires SameName(a, b)
    ensures Named(headers, a) == Named(headers, b)
    decreases |headers|
  {
    if |headers| != 0 {
      NamedFolds(headers[1..], a, b);
    }
  }
}

=== FILE: results.dfy ===
/** Optional values and success-or-failure values, the shapes every operation of
    the model returns instead of a Java `null` or a failed `Mono`. */
module Results {

  /** A value that may be absent: the model's stand-in for a nullable Java field. */
  datatype Option<+T> = None | Some(value: T) {

    predicate IsFailure() {
      None?
    }

    function PropagateFailure<U>(): Option<U>
      requires None?
    {
      None
    }

    function Extract(): T
      requires Some?
    {
      value
    }
  }

  /** Either the value an operation produced or the error it terminated with. */
  datatype Result<+T, +E> = Ok(value: T) | Err(error: E) {

    predicate IsFailure() {
      Err?
    }

    function PropagateFailure<U>(): Result<U, E>
      requires Err?
    {
      Err(error)
    }

    function Extract(): T
      requires Ok?
    {
      value
    }
  }
}

=== FILE: routing.dfy ===
/** The URI builder the endpoint transformers drive: appending path segments and
    query parameters, in call order. */
module Routing {
  import opened Results

  datatype Verb = GET | POST | PUT | PATCH | DELETE

  datatype Param = Param(key: string, value: string)

  /** The part of a URI the transformers build: its path segments and its query
      parameters, each in the order they were added. */
  datatype Uri = Uri(segments: seq<string>, query: seq<Param>)

  /** One call on the URI builder. */
  datatype Step = PathSegments(segments: seq<string>) | QueryParam(key: string, value: string)

  /** The builder an endpoint starts from: the server root, with nothing added. */
  const Root := Uri([], [])

  /** The path segments a sequence of builder calls adds, in order. */
  function SegmentsOf(steps: seq<Step>): seq<string>
  {
    if |steps| == 0 then []
    else (if steps[0].PathSegments? then steps[0].segments else []) + SegmentsOf(steps[1..])
  }

  /** The query parameters a sequence of builder calls adds, in order. */
  function ParamsOf(steps: seq<Step>): seq<Param>
  {
    if |steps| == 0 then []
    else (if steps[0].QueryParam? then [Param(steps[0].key, steps[0].value)] else []) + ParamsOf(steps[1..])
  }

  /** The builder after the calls `steps`, made one after the other. */
  function Apply(steps: seq<Step>, u: Uri): (r: Uri)
    ensures r.segments == u.segments + SegmentsOf(steps)
    ensures r.query == u.query + ParamsOf(steps)
    decreases |steps|
  {
    if |steps| == 0 then u
    else
      var rest := steps[1..];
      match steps[0]
      case PathSegments(s) =>
        assert SegmentsOf(steps) == s + SegmentsOf(rest);
        assert ParamsOf(steps) == [] + ParamsOf(rest) == ParamsOf(rest);
        assert u.segments + s + SegmentsOf(rest) == u.segments + (s + SegmentsOf(rest));
        Apply(rest, u.(segments := u.segments + s))
      case QueryParam(k, v) =>
        assert SegmentsOf(steps) == [] + SegmentsOf(rest) == SegmentsOf(rest);
        assert ParamsOf(steps) == [Param(k, v)] + ParamsOf(rest);
        assert u.query + [Param(k, v)] + ParamsOf(rest) == u.query + ([Param(k, v)] + ParamsOf(rest));
        Apply(rest, u.(query := u.query + [Param(k, v)]))
  }

  /** Query parameters rendered as builder calls. */
  function QuerySteps(params: seq<Param>): (r: seq<Step>)
    ensures SegmentsOf(r) == []
    ensures ParamsOf(r) == params
  {
    if |params| == 0 then [] else [QueryParam(params[0].key, params[0].value)] + QuerySteps(params[1..])
  }

  lemma {:induction false} SegmentsOfAppend(a: seq<Step>, b: seq<Step>)
    ensures SegmentsOf(a + b) == SegmentsOf(a) + SegmentsOf(b)
    decreases |a|
  {
    if |a| == 0 {
      assert a + b == b;
    } else {
      assert (a + b)[0] == a[0];
      assert (a + b)[1..] == a[1..] + b;
      SegmentsOfAppend(a[1..], b);
    }
  }

  lemma {:induction false} ParamsOfAppend(a: seq<Step>, b: seq<Step>)
    ensures ParamsOf(a + b) == ParamsOf(a) + ParamsOf(b)
    decreases |a|
  {
    if |a| == 0 {
      assert a + b == b;
    } else {
      assert (a + b)[0] == a[0];
      assert (a + b)[1..] == a[1..] + b;
      ParamsOfAppend(a[1..], b);
    }
  }

  /** The value of the first query parameter with that key. */
  function QueryValue(query: seq<Param>, key: string): (r: Option<string>)
    ensures r.Some? <==> exists i :: 0 <= i < |query| && query[i].key == key
    ensures r.Some? ==> Param(key, r.value) in query
  {
    if |query| == 0 then None
    else if query[0].key == key then Some(query[0].value)
    else QueryValue(query[1..], key)
  }

  /** One endpoint of a routing table: its verb and its URI transformer. */
  datatype Endpoint = Endpoint(verb: Verb, transform: seq<Step>)

  /** Where an endpoint sends its request, starting from the server root. */
  function Target(e: Endpoint): (Verb, Uri)
  {
    (e.verb, Apply(e.transform, Root))
  }

  /** An endpoint whose transformer only appends path segments targets exactly
      those segments, with no query. */
  lemma PathTargets()
    ensures forall v, segs :: Target(Endpoint(v, [PathSegments(segs)])) == (v, Uri(segs, []))
  {
    forall v, segs ensures Target(Endpoint(v, [PathSegments(segs)])) == (v, Uri(segs, [])) {
      assert [PathSegments(segs)][1..] == [];
      assert SegmentsOf([PathSegments(segs)]) == segs;
      assert ParamsOf([PathSegments(segs)]) == [];
      var u := Apply([PathSegments(segs)], Root);
      assert u.segments == [] + segs == segs;
      assert u.query == [];
      assert u == Uri(u.segments, u.query);
    }
  }

  /** The transformer `pathSegment(path...)` followed by one `queryParam` per parameter. */
  function PathAndQuery(path: seq<string>, params: seq<Param>): seq<Step>
  {
    [PathSegments(path)] + QuerySteps(params)
  }

  /** Such a transformer targets exactly that path and those parameters, in order. */
  lemma PathAndQueryTargets()
    ensures forall v, path, params :: Target(Endpoint(v, PathAndQuery(path, params))) == (v, Uri(path, params))
  {
    forall v, path, params ensures Target(Endpoint(v, PathAndQuery(path, params))) == (v, Uri(path, params)) {
      var steps := PathAndQuery(path, params);
      SegmentsOfAppend([PathSegments(path)], QuerySteps(params));
      ParamsOfAppend([PathSegments(path)], QuerySteps(params));
      assert [PathSegments(path)][1..] == [];
      assert SegmentsOf([PathSegments(path)]) == path;
      assert ParamsOf([PathSegments(path)]) == [];
      var u := Apply(steps, Root);
      assert u.segments == [] + (path + []) == path;
      assert u.query == [] + ([] + params) == params;
      assert u == Uri(u.segments, u.query);
    }
  }
}

=== FILE: service_admin.dfy ===
/** Administering service brokers: deleting one by name and listing all. */
module ServiceAdmin {
  import opened Results
  import opened Errors
  import opened Validation
  import opened Client

  /** The field of the delete request the operation reads; its own `isValid`
      check is supplied by the caller as a `ValidationResult`. */
  datatype DeleteServiceBrokerRequest = DeleteServiceBrokerRequest(name: string)

  /** The summary of a service broker handed to callers of `listServiceBrokers`. */
  datatype ServiceBroker = ServiceBroker(id: string, name: string, url: string)

  /** The server-side filter of the broker list by name. */
  function ServiceBrokerFilter(name: string): Resource<ServiceBrokerEntity> -> bool
  {
    (b: Resource<ServiceBrokerEntity>) => b.entity.name == name
  }

  function MatchingServiceBrokers(server: Server, name: string): seq<Resource<ServiceBrokerEntity>>
  {
    if server.serviceBrokers.Listing? then Select(server.serviceBrokers.items, ServiceBrokerFilter(name)) else []
  }

  /** The broker with that name, which must be unique. */
  function GetServiceBroker(server: Server, name: string): (r: Result<Resource<ServiceBrokerEntity>, Error>)
    ensures r.Ok? <==> server.serviceBrokers.Listing? && |MatchingServiceBrokers(server, name)| == 1
    ensures r.Ok? ==> r.value == MatchingServiceBrokers(server, name)[0] && r.value.entity.name == name
    ensures server.serviceBrokers.Listing? && |MatchingServiceBrokers(server, name)| == 0
      ==> r == Err(IllegalArgument("Service broker " + name + " does not exist"))
    ensures server.serviceBrokers.Listing? && |MatchingServiceBrokers(server, name)| > 1
      ==> r == Err(TooManyElements)
  {
    LookupSingle(server.serviceBrokers, ServiceBrokerFilter(name), DoesNotExist("Service broker ", name))
  }

  /** Delete the broker with the requested name. */
  function DeleteServiceBroker(server: Server, request: DeleteServiceBrokerRequest, verdict: ValidationResult): (o: Outcome<()>)
    ensures verdict.Status() == Invalid ==> o == Outcome([], Err(RequestInvalid(verdict.messages)))
    ensures o.result.Ok? <==>
      verdict.Status() == Valid && server.serviceBrokers.Listing? && |MatchingServiceBrokers(server, request.name)| == 1
    ensures o.result.Ok? ==> o.calls == [Call.ListServiceBrokers(Some(request.name)),
      Call.DeleteServiceBroker(MatchingServiceBrokers(server, request.name)[0].id)]
    ensures o.result.Err? ==> ReadOnly(o.calls)
    ensures verdict.Status() == Valid && server.serviceBrokers.Listing? && |MatchingServiceBrokers(server, request.name)| == 0
      ==> o == Outcome([Call.ListServiceBrokers(Some(request.name))],
                       Err(IllegalArgument("Service broker " + request.name + " does not exist")))
  {
    match Validate(request, verdict)
    case Err(e) => Outcome([], Err(e))
    case Ok(valid) =>
      var lookup := Call.ListServiceBrokers(Some(valid.name));
      match GetServiceBroker(server, valid.name)
      case Err(e) => Outcome([lookup], Err(e))
      case Ok(broker) => Outcome([lookup, Call.DeleteServiceBroker(broker.id)], Ok(()))
  }

  /** The summary of one broker resource. */
  function ToServiceBroker(resource: Resource<ServiceBrokerEntity>): (b: ServiceBroker)
    ensures b.id == resource.id && b.name == resource.entity.name && b.url == resource.entity.brokerUrl
  {
    ServiceBroker(resource.id, resource.entity.name, resource.entity.brokerUrl)
  }

  /** The resource a summary was taken from. */
  function FromServiceBroker(b: ServiceBroker): Resource<ServiceBrokerEntity>
  {
    Resource(b.id, ServiceBrokerEntity(b.name, b.url))
  }

  /** The summary keeps every field it reads, none swapped. */
  lemma ToServiceBrokerRoundTrip(resource: Resource<ServiceBrokerEntity>, b: ServiceBroker)
    ensures FromServiceBroker(ToServiceBroker(resource)) == resource
    ensures ToServiceBroker(FromServiceBroker(b)) == b
  {
  }

  /** Every broker, as its summary, in server order; no name filter is sent. */
  function ListServiceBrokers(server: Server): (o: Outcome<seq<ServiceBroker>>)
    ensures o.calls == [Call.ListServiceBrokers(None)]
    ensures o.result.Err? <==> server.serviceBrokers.Unavailable?
    ensures o.result.Ok? ==>
      && |o.result.value| == |server.serviceBrokers.items|
      && forall i :: 0 <= i < |o.result.value| ==> o.result.value[i] == ToServiceBroker(server.serviceBrokers.items[i])
    ensures server.serviceBrokers == Listing([]) ==> o.result == Ok([])
  {
    match server.serviceBrokers
    case Unavailable(e) => Outcome([Call.ListServiceBrokers(None)], Err(e))
    case Listing(items) => Outcome([Call.ListServiceBrokers(None)], Ok(Project(items, ToServiceBroker)))
  }
}

=== FILE: services.dfy ===
/** Binding and unbinding a service instance to an application in the current
    space: validate, resolve both names to ids, then act on the binding. */
module Services {
  import opened Results
  import opened Errors
  import opened Validation
  import opened Client
  import opened UnbindServiceRequests

  /** The fields of the bind request the operation reads; its own `isValid`
      check is supplied by the caller as a `ValidationResult`. */
  datatype BindServiceRequest = BindServiceRequest(applicationName: string, serviceName: string, parameters: map<string, string>)

  /** The server-side filter of a space's application list by name. */
  function ApplicationFilter(spaceId: string, name: string): Resource<ApplicationEntity> -> bool
  {
    (a: Resource<ApplicationEntity>) => a.entity.name == name && a.entity.spaceId == spaceId
  }

  /** The server-side filter of a space's service-instance list by name;
      user-provided instances are kept only when asked for. */
  function ServiceInstanceFilter(spaceId: string, name: string, returnUserProvided: bool): Resource<ServiceInstanceEntity> -> bool
  {
    (i: Resource<ServiceInstanceEntity>) => i.entity.name == name && i.entity.spaceId == spaceId && (returnUserProvided || !i.entity.userProvided)
  }

  /** The server-side filter of the binding list by application and service instance. */
  function ServiceBindingFilter(applicationId: string, serviceInstanceId: string): Resource<ServiceBindingEntity> -> bool
  {
    (b: Resource<ServiceBindingEntity>) => b.entity.applicationId == applicationId && b.entity.serviceInstanceId == serviceInstanceId
  }

  /** The applications of the space with that name. */
  function MatchingApplications(server: Server, spaceId: string, name: string): seq<Resource<ApplicationEntity>>
  {
    if server.applications.Listing? then Select(server.applications.items, ApplicationFilter(spaceId, name)) else []
  }

  /** The service instances (user-provided ones included) of the space with that name. */
  function MatchingServiceInstances(server: Server, spaceId: string, name: string): seq<Resource<ServiceInstanceEntity>>
  {
    if server.serviceInstances.Listing? then Select(server.serviceInstances.items, ServiceInstanceFilter(spaceId, name, true)) else []
  }

  /** The bindings of that application to that service instance. */
  function MatchingServiceBindings(server: Server, applicationId: string, serviceInstanceId: string): seq<Resource<ServiceBindingEntity>>
  {
    if server.serviceBindings.Listing? then Select(server.serviceBindings.items, ServiceBindingFilter(applicationId, serviceInstanceId)) else []
  }

  /** The application named `name` in the space, which must be unique. */
  function GetApplication(server: Server, name: string, spaceId: string): (r: Result<Resource<ApplicationEntity>, Error>)
    ensures r.Ok? <==> server.applications.Listing? && |MatchingApplications(server, spaceId, name)| == 1
    ensures r.Ok? ==> r.value == MatchingApplications(server, spaceId, name)[0]
    ensures r.Ok? ==> r.value.entity.name == name && r.value.entity.spaceId == spaceId
    ensures server.applications.Listing? && |MatchingApplications(server, spaceId, name)| == 0
      ==> r == Err(IllegalArgument("Application " + name + " does not exist"))
  {
    LookupSingle(server.applications, ApplicationFilter(spaceId, name), DoesNotExist("Application ", name))
  }

  /** The service instance named `name` in the space, user-provided instances
      included, which must be unique. */
  function GetSpaceServiceInstance(server: Server, name: string, spaceId: string): (r: Result<Resource<ServiceInstanceEntity>, Error>)
    ensures r.Ok? <==> server.serviceInstances.Listing? && |MatchingServiceInstances(server, spaceId, name)| == 1
    ensures r.Ok? ==> r.value == MatchingServiceInstances(server, spaceId, name)[0]
    ensures r.Ok? ==> r.value.entity.name == name && r.value.entity.spaceId == spaceId
    ensures server.serviceInstances.Listing? && |MatchingServiceInstances(server, spaceId, name)| == 0
      ==> r == Err(IllegalArgument("Service " + name + " does not exist"))
  {
    LookupSingle(server.serviceInstances, ServiceInstanceFilter(spaceId, name, true), DoesNotExist("Service ", name))
  }

  /** The text of the "no binding" message before the application id. */
  const BindingMissingPrefix := "Service binding " + "does not exist " + "for applicationId "

  /** The template of the "no binding" message as the source writes it. */
  const BindingMissingTemplateAsWritten := BindingMissingPrefix + "%s" + " and serviceInstanceId"

  /** The same template with a placeholder for the service instance id too. */
  const BindingMissingTemplate := BindingMissingPrefix + "%s" + " and serviceInstanceId " + "%s"

  lemma BindingMissingPrefixIsLiteral()
    ensures '%' !in BindingMissingPrefix
  {
    LiteralConcat("Service binding ", "does not exist ");
    LiteralConcat("Service binding " + "does not exist ", "for applicationId ");
  }

  /** The one-placeholder template uses the first argument and ignores the second. */
  lemma RenderBindingMissingAsWritten(applicationId: string, serviceInstanceId: string)
    ensures Format(BindingMissingTemplateAsWritten, [applicationId, serviceInstanceId])
         == BindingMissingPrefix + applicationId + " and serviceInstanceId"
  {
    BindingMissingPrefixIsLiteral();
    FormatOne(BindingMissingPrefix, " and serviceInstanceId", applicationId, [serviceInstanceId]);
    assert [applicationId] + [serviceInstanceId] == [applicationId, serviceInstanceId];
  }

  /** The two-placeholder template uses both arguments, in order. */
  lemma RenderBindingMissing(applicationId: string, serviceInstanceId: string)
    ensures Format(BindingMissingTemplate, [applicationId, serviceInstanceId])
         == BindingMissingPrefix + applicationId + " and serviceInstanceId " + serviceInstanceId
  {
    var tail := " and serviceInstanceId " + "%s";
    BindingMissingPrefixIsLiteral();
    FormatSplice(BindingMissingPrefix, tail, applicationId, [serviceInstanceId]);
    FormatOne(" and serviceInstanceId ", "", serviceInstanceId, []);
    assert " and serviceInstanceId " + "%s" + "" == tail;
    assert [serviceInstanceId] + [] == [serviceInstanceId];
    assert BindingMissingPrefix + "%s" + tail == BindingMissingTemplate;
    assert [applicationId] + [serviceInstanceId] == [applicationId, serviceInstanceId];
    assert BindingMissingPrefix + applicationId + (" and serviceInstanceId " + serviceInstanceId + "")
      == BindingMissingPrefix + applicationId + " and serviceInstanceId " + serviceInstanceId;
  }

  /** The "no binding" error exactly as the source formats it: the template has
      one `%s` but is given two arguments, so the service instance id is dropped. */
  function BindingMissingAsWritten(applicationId: string, serviceInstanceId: string): (r: Error)
    ensures r == IllegalArgument(BindingMissingPrefix + applicationId + " and serviceInstanceId")
  {
    RenderBindingMissingAsWritten(applicationId, serviceInstanceId);
    IllegalArgument(Format(BindingMissingTemplateAsWritten, [applicationId, serviceInstanceId]))
  }

  /** As written, two lookups that differ only in the service instance report
      the same message: the message cannot tell which instance was meant. */
  lemma BindingMissingAsWrittenDropsInstance(applicationId: string, instance1: string, instance2: string)
    ensures BindingMissingAsWritten(applicationId, instance1) == BindingMissingAsWritten(applicationId, instance2)
  {
  }

  /** The "no binding" error with a placeholder for each argument. */
  function BindingMissing(applicationId: string, serviceInstanceId: string): (r: Error)
    ensures r == IllegalArgument(BindingMissingPrefix + applicationId + " and serviceInstanceId " + serviceInstanceId)
  {
    RenderBindingMissing(applicationId, serviceInstanceId);
    IllegalArgument(Format(BindingMissingTemplate, [applicationId, serviceInstanceId]))
  }

  /** The corrected message names the service instance: different instances of
      the same application give different messages. */
  lemma BindingMissingNamesInstance(applicationId: string, instance1: string, instance2: string)
    requires BindingMissing(applicationId, instance1) == BindingMissing(applicationId, instance2)
    ensures instance1 == instance2
  {
    var p := BindingMissingPrefix + applicationId + " and serviceInstanceId ";
    var m1 := p + instance1;
    var m2 := p + instance2;
    assert m1 == BindingMissing(applicationId, instance1).message;
    assert m2 == BindingMissing(applicationId, instance2).message;
    assert m1[|p|..] == instance1;
    assert m2[|p|..] == instance2;
  }

  /** Which text the "no binding" error carries: the source's own, or the
      corrected one. */
  datatype BindingMessage = AsWritten | Corrected

  function NoBinding(m: BindingMessage, applicationId: string, serviceInstanceId: string): Error
  {
    match m
    case AsWritten => BindingMissingAsWritten(applicationId, serviceInstanceId)
    case Corrected => BindingMissing(applicationId, serviceInstanceId)
  }

  /** The id of the one binding of that application to that service instance. */
  function GetServiceBindingId(server: Server, serviceInstanceId: string, applicationId: string, m: BindingMessage): (r: Result<string, Error>)
    ensures r.Ok? <==> server.serviceBindings.Listing? && |MatchingServiceBindings(server, applicationId, serviceInstanceId)| == 1
    ensures r.Ok? ==> r.value == MatchingServiceBindings(server, applicationId, serviceInstanceId)[0].id
    ensures server.serviceBindings.Listing? && |MatchingServiceBindings(server, applicationId, serviceInstanceId)| == 0
      ==> r == Err(NoBinding(m, applicationId, serviceInstanceId))
    ensures server.serviceBindings.Listing? && |MatchingServiceBindings(server, applicationId, serviceInstanceId)| > 1
      ==> r == Err(TooManyElements)
  {
    var binding :- LookupSingle(server.serviceBindings, ServiceBindingFilter(applicationId, serviceInstanceId),
                                NoBinding(m, applicationId, serviceInstanceId));
    Ok(binding.id)
  }

  /** The create-binding call with the resolved ids and the parameters unchanged. */
  function RequestServiceBinding(serviceInstanceId: string, applicationId: string, parameters: map<string, string>): (c: Call)
    ensures IsWrite(c) && c.CreateServiceBinding?
    ensures c.applicationId == applicationId && c.serviceInstanceId == serviceInstanceId
    ensures c.parameters == parameters
  {
    CreateServiceBinding(applicationId, serviceInstanceId, parameters)
  }

  /** The delete call for a resolved binding. */
  function RequestServiceUnbinding(serviceBindingId: string): (c: Call)
    ensures IsWrite(c) && c.DeleteServiceBinding? && c.serviceBindingId == serviceBindingId
  {
    DeleteServiceBinding(serviceBindingId)
  }

  /** The space's service-instance list answered and holds no instance of that name. */
  predicate ServiceMissing(server: Server, spaceId: string, serviceName: string)
  {
    server.serviceInstances.Listing? && |MatchingServiceInstances(server, spaceId, serviceName)| == 0
  }

  /** The space's service-instance list holds exactly one instance of that name. */
  predicate ServiceUnique(server: Server, spaceId: string, serviceName: string)
  {
    server.serviceInstances.Listing? && |MatchingServiceInstances(server, spaceId, serviceName)| == 1
  }

  /** The space's application list answered and holds no application of that name. */
  predicate ApplicationMissing(server: Server, spaceId: string, applicationName: string)
  {
    server.applications.Listing? && |MatchingApplications(server, spaceId, applicationName)| == 0
  }

  /** The space's application list holds exactly one application of that name. */
  predicate ApplicationUnique(server: Server, spaceId: string, applicationName: string)
  {
    server.applications.Listing? && |MatchingApplications(server, spaceId, applicationName)| == 1
  }

  /** Both names resolve to exactly one resource of the space. */
  predicate BothResolve(server: Server, spaceId: string, applicationName: string, serviceName: string)
  {
    && server.serviceInstances.Listing? && |MatchingServiceInstances(server, spaceId, serviceName)| == 1
    && server.applications.Listing? && |MatchingApplications(server, spaceId, applicationName)| == 1
  }

  /** The lookups of a trace ask for these names in this space. */
  predicate LooksUpByName(calls: seq<Call>, spaceId: string, applicationName: string, serviceName: string)
  {
    forall i :: 0 <= i < |calls| ==>
      (calls[i].ListSpaceApplications? ==> calls[i] == ListSpaceApplications(spaceId, applicationName))
      && (calls[i].ListSpaceServiceInstances? ==> calls[i] == ListSpaceServiceInstances(spaceId, serviceName, true))
  }

  /** Resolve the service instance, then the application (the source runs both
      lookups at once; this model runs them in source order). */
  function ResolveBoth(server: Server, spaceId: string, applicationName: string, serviceName: string)
    : (o: Outcome<(string, string)>)
    ensures o.result.Ok? <==> BothResolve(server, spaceId, applicationName, serviceName)
    ensures o.result.Ok? ==>
      o.result.value == (MatchingServiceInstances(server, spaceId, serviceName)[0].id, MatchingApplications(server, spaceId, applicationName)[0].id)
    ensures ReadOnly(o.calls) && LooksUpByName(o.calls, spaceId, applicationName, serviceName)
    ensures 0 < |o.calls| <= 2
    ensures o.result.Ok? ==> o.calls == [ListSpaceServiceInstances(spaceId, serviceName, true), ListSpaceApplications(spaceId, applicationName)]
    ensures ServiceMissing(server, spaceId, serviceName) && ApplicationUnique(server, spaceId, applicationName)
      ==> o.result == Err(IllegalArgument("Service " + serviceName + " does not exist"))
    ensures ServiceUnique(server, spaceId, serviceName) && ApplicationMissing(server, spaceId, applicationName)
      ==> o.result == Err(IllegalArgument("Application " + applicationName + " does not exist"))
    ensures ServiceMissing(server, spaceId, serviceName) && ApplicationMissing(server, spaceId, applicationName)
      ==> (o.result == Err(IllegalArgument("Service " + serviceName + " does not exist"))
           || o.result == Err(IllegalArgument("Application " + applicationName + " does not exist")))
  {
    var instanceCall := ListSpaceServiceInstances(spaceId, serviceName, true);
    var applicationCall := ListSpaceApplications(spaceId, applicationName);
    match GetSpaceServiceInstance(server, serviceName, spaceId)
    case Err(e) => Outcome([instanceCall], Err(e))
    case Ok(instance) =>
      match GetApplication(server, applicationName, spaceId)
      case Err(e) => Outcome([instanceCall, applicationCall], Err(e))
      case Ok(application) => Outcome([instanceCall, applicationCall], Ok((instance.id, application.id)))
  }

  /** Bind the named service instance to the named application. */
  function Bind(server: Server, spaceId: string, request: BindServiceRequest, verdict: ValidationResult): (o: Outcome<()>)
    ensures verdict.Status() == Invalid ==> o == Outcome([], Err(RequestInvalid(verdict.messages)))
    ensures o.result.Ok? <==> verdict.Status() == Valid && BothResolve(server, spaceId, request.applicationName, request.serviceName)
    ensures o.result.Ok? ==> EndsWithOnlyWrite(o.calls, CreateServiceBinding(
      MatchingApplications(server, spaceId, request.applicationName)[0].id,
      MatchingServiceInstances(server, spaceId, request.serviceName)[0].id,
      request.parameters))
    ensures o.result.Err? ==> ReadOnly(o.calls)
    ensures LooksUpByName(o.calls, spaceId, request.applicationName, request.serviceName)
    ensures verdict.Status() == Valid && ServiceMissing(server, spaceId, request.serviceName)
      && ApplicationUnique(server, spaceId, request.applicationName)
      ==> o.result == Err(IllegalArgument("Service " + request.serviceName + " does not exist"))
    ensures verdict.Status() == Valid && ServiceUnique(server, spaceId, request.serviceName)
      && ApplicationMissing(server, spaceId, request.applicationName)
      ==> o.result == Err(IllegalArgument("Application " + request.applicationName + " does not exist"))
    ensures verdict.Status() == Valid && ServiceMissing(server, spaceId, request.serviceName)
      && ApplicationMissing(server, spaceId, request.applicationName)
      ==> (o.result == Err(IllegalArgument("Service " + request.serviceName + " does not exist"))
           || o.result == Err(IllegalArgument("Application " + request.applicationName + " does not exist")))
  {
    match Validate(request, verdict)
    case Err(e) => Outcome([], Err(e))
    case Ok(valid) =>
      var resolved := ResolveBoth(server, spaceId, valid.applicationName, valid.serviceName);
      match resolved.result
      case Err(e) => Outcome(resolved.calls, Err(e))
      case Ok(ids) =>
        var create := RequestServiceBinding(ids.0, ids.1, valid.parameters);
        assert EndsWithOnlyWrite([create], create);
        EndsWithOnlyWriteAfter(resolved.calls, [create], create);
        Outcome(resolved.calls + [create], Ok(()))
  }

  /** Both names resolve and the resolved pair has exactly one binding. */
  predicate BindingResolves(server: Server, spaceId: string, applicationName: string, serviceName: string)
  {
    && BothResolve(server, spaceId, applicationName, serviceName)
    && server.serviceBindings.Listing?
    && |MatchingServiceBindings(server, ResolvedApplicationId(server, spaceId, applicationName),
                                ResolvedServiceInstanceId(server, spaceId, serviceName))| == 1
  }

  function ResolvedApplicationId(server: Server, spaceId: string, applicationName: string): string
    requires server.applications.Listing? && |MatchingApplications(server, spaceId, applicationName)| == 1
  {
    MatchingApplications(server, spaceId, applicationName)[0].id
  }

  function ResolvedServiceInstanceId(server: Server, spaceId: string, serviceName: string): string
    requires server.serviceInstances.Listing? && |MatchingServiceInstances(server, spaceId, serviceName)| == 1
  {
    MatchingServiceInstances(server, spaceId, serviceName)[0].id
  }

  /** Find the one binding of a resolved application and service instance and
      delete it by id. */
  function UnbindIds(server: Server, applicationId: string, serviceInstanceId: string, m: BindingMessage): (o: Outcome<()>)
    ensures o.result.Ok? <==> server.serviceBindings.Listing? && |MatchingServiceBindings(server, applicationId, serviceInstanceId)| == 1
    ensures o.result.Ok? ==> EndsWithOnlyWrite(o.calls, DeleteServiceBinding(MatchingServiceBindings(server, applicationId, serviceInstanceId)[0].id))
    ensures o.result.Err? ==> ReadOnly(o.calls)
    ensures 0 < |o.calls| && o.calls[0] == ListServiceBindings(applicationId, serviceInstanceId)
    ensures server.serviceBindings.Listing? && |MatchingServiceBindings(server, applicationId, serviceInstanceId)| == 0
      ==> o.result == Err(NoBinding(m, applicationId, serviceInstanceId))
  {
    var bindingCall := ListServiceBindings(applicationId, serviceInstanceId);
    match GetServiceBindingId(server, serviceInstanceId, applicationId, m)
    case Err(e) => Outcome([bindingCall], Err(e))
    case Ok(bindingId) => Outcome([bindingCall, RequestServiceUnbinding(bindingId)], Ok(()))
  }

  /** Both names resolve and the resolved pair has no binding at all. */
  predicate BindingMissingFor(server: Server, spaceId: string, applicationName: string, serviceName: string)
  {
    && BothResolve(server, spaceId, applicationName, serviceName)
    && server.serviceBindings.Listing?
    && |MatchingServiceBindings(server, ResolvedApplicationId(server, spaceId, applicationName),
                                ResolvedServiceInstanceId(server, spaceId, serviceName))| == 0
  }

  /** The unbinding of two present names: resolve both, find their one binding,
      delete it by id. */
  function UnbindNames(server: Server, spaceId: string, applicationName: string, serviceName: string, m: BindingMessage): (o: Outcome<()>)
    ensures o.result.Ok? <==> BindingResolves(server, spaceId, applicationName, serviceName)
    ensures o.result.Ok? ==>
      EndsWithOnlyWrite(o.calls, DeleteServiceBinding(MatchingServiceBindings(server,
        ResolvedApplicationId(server, spaceId, applicationName),
        ResolvedServiceInstanceId(server, spaceId, serviceName))[0].id))
    ensures o.result.Err? ==> ReadOnly(o.calls)
    ensures ServiceMissing(server, spaceId, serviceName) && ApplicationUnique(server, spaceId, applicationName)
      ==> o.result == Err(IllegalArgument("Service " + serviceName + " does not exist"))
    ensures ServiceUnique(server, spaceId, serviceName) && ApplicationMissing(server, spaceId, applicationName)
      ==> o.result == Err(IllegalArgument("Application " + applicationName + " does not exist"))
    ensures ServiceMissing(server, spaceId, serviceName) && ApplicationMissing(server, spaceId, applicationName)
      ==> (o.result == Err(IllegalArgument("Service " + serviceName + " does not exist"))
           || o.result == Err(IllegalArgument("Application " + applicationName + " does not exist")))
    ensures BindingMissingFor(server, spaceId, applicationName, serviceName)
      ==> o.result == Err(NoBinding(m, ResolvedApplicationId(server, spaceId, applicationName),
                                       ResolvedServiceInstanceId(server, spaceId, serviceName)))
  {
    var resolved := ResolveBoth(server, spaceId, applicationName, serviceName);
    match resolved.result
    case Err(e) => Outcome(resolved.calls, Err(e))
    case Ok(ids) =>
      var rest := UnbindIds(server, ids.1, ids.0, m);
      if rest.result.Ok? then
        EndsWithOnlyWriteAfter(resolved.calls, rest.calls, rest.calls[|rest.calls| - 1]);
        Outcome(resolved.calls + rest.calls, rest.result)
      else
        ReadOnlyAppend(resolved.calls, rest.calls);
        Outcome(resolved.calls + rest.calls, rest.result)
  }

  /** Unbind the named service instance from the named application; a missing
      binding is reported with the corrected message. */
  function Unbind(server: Server, spaceId: string, request: UnbindServiceRequest): (o: Outcome<()>)
    ensures IsValid(request).Status() == Invalid ==> o == Outcome([], Err(RequestInvalid(IsValid(request).messages)))
    ensures o.result.Ok? <==>
      && request.applicationName.Some? && request.serviceName.Some?
      && BindingResolves(server, spaceId, request.applicationName.value, request.serviceName.value)
    ensures o.result.Ok? ==>
      EndsWithOnlyWrite(o.calls, DeleteServiceBinding(MatchingServiceBindings(server,
        ResolvedApplicationId(server, spaceId, request.applicationName.value),
        ResolvedServiceInstanceId(server, spaceId, request.serviceName.value))[0].id))
    ensures o.result.Err? ==> ReadOnly(o.calls)
    ensures request.applicationName.Some? && request.serviceName.Some?
      && ServiceMissing(server, spaceId, request.serviceName.value)
      && ApplicationUnique(server, spaceId, request.applicationName.value)
      ==> o.result == Err(IllegalArgument("Service " + request.serviceName.value + " does not exist"))
    ensures request.applicationName.Some? && request.serviceName.Some?
      && ServiceUnique(server, spaceId, request.serviceName.value)
      && ApplicationMissing(server, spaceId, request.applicationName.value)
      ==> o.result == Err(IllegalArgument("Application " + request.applicationName.value + " does not exist"))
    ensures request.applicationName.Some? && request.serviceName.Some?
      && ServiceMissing(server, spaceId, request.serviceName.value)
      && ApplicationMissing(server, spaceId, request.applicationName.value)
      ==> (o.result == Err(IllegalArgument("Service " + request.serviceName.value + " does not exist"))
           || o.result == Err(IllegalArgument("Application " + request.applicationName.value + " does not exist")))
    ensures request.applicationName.Some? && request.serviceName.Some?
      && BindingMissingFor(server, spaceId, request.applicationName.value, request.serviceName.value)
      ==> o.result == Err(BindingMissing(ResolvedApplicationId(server, spaceId, request.applicationName.value),
                                         ResolvedServiceInstanceId(server, spaceId, request.serviceName.value)))
  {
    match Validate(request, IsValid(request))
    case Err(e) => Outcome([], Err(e))
    case Ok(valid) => UnbindNames(server, spaceId, valid.applicationName.value, valid.serviceName.value, Corrected)
  }

  /** `unbind` exactly as the source reports a missing binding: the message
      names the application id only. Everything else is as in `Unbind`. */
  function UnbindAsWritten(server: Server, spaceId: string, request: UnbindServiceRequest): (o: Outcome<()>)
    ensures o.calls == Unbind(server, spaceId, request).calls
    ensures o.result.Ok? <==> Unbind(server, spaceId, request).result.Ok?
    ensures request.applicationName.Some? && request.serviceName.Some?
      && BindingMissingFor(server, spaceId, request.applicationName.value, request.serviceName.value)
      ==> o.result == Err(BindingMissingAsWritten(ResolvedApplicationId(server, spaceId, request.applicationName.value),
                                                  ResolvedServiceInstanceId(server, spaceId, request.serviceName.value)))
  {
    match Validate(request, IsValid(request))
    case Err(e) => Outcome([], Err(e))
    case Ok(valid) => UnbindNames(server, spaceId, valid.applicationName.value, valid.serviceName.value, AsWritten)
  }

  /** As written, unbinding one application from two different service
      instances that both lack a binding reports the same message; with the
      corrected message the two reports differ. */
  lemma UnbindAsWrittenLosesInstance(server: Server, spaceId: string, application: string, service1: string, service2: string)
    requires BindingMissingFor(server, spaceId, application, service1)
    requires BindingMissingFor(server, spaceId, application, service2)
    requires ResolvedServiceInstanceId(server, spaceId, service1) != ResolvedServiceInstanceId(server, spaceId, service2)
    ensures UnbindAsWritten(server, spaceId, UnbindServiceRequest(Some(application), Some(service1))).result
         == UnbindAsWritten(server, spaceId, UnbindServiceRequest(Some(application), Some(service2))).result
    ensures Unbind(server, spaceId, UnbindServiceRequest(Some(application), Some(service1))).result
         != Unbind(server, spaceId, UnbindServiceRequest(Some(application), Some(service2))).result
  {
    var a := ResolvedApplicationId(server, spaceId, application);
    BindingMissingAsWrittenDropsInstance(a, ResolvedServiceInstanceId(server, spaceId, service1), ResolvedServiceInstanceId(server, spaceId, service2));
    if BindingMissing(a, ResolvedServiceInstanceId(server, spaceId, service1)) == BindingMissing(a, ResolvedServiceInstanceId(server, spaceId, service2)) {
      BindingMissingNamesInstance(a, ResolvedServiceInstanceId(server, spaceId, service1), ResolvedServiceInstanceId(server, spaceId, service2));
    }
  }
}

=== FILE: stacks.dfy ===
/** Looking up one stack by name and listing all stacks. */
module Stacks {
  import opened Results
  import opened Errors
  import opened Client

  /** The request of `get`; it has no validation step. */
  datatype GetStackRequest = GetStackRequest(name: string)

  /** The summary of a stack handed to callers. */
  datatype Stack = Stack(description: string, id: string, name: string)

  /** The server-side filter of the stack list by name. */
  function StackFilter(name: string): Resource<StackEntity> -> bool
  {
    (s: Resource<StackEntity>) => s.entity.name == name
  }

  function MatchingStacks(server: Server, name: string): seq<Resource<StackEntity>>
  {
    if server.stacks.Listing? then Select(server.stacks.items, StackFilter(name)) else []
  }

  /** The summary of one stack resource. */
  function ToStack(resource: Resource<StackEntity>): (s: Stack)
    ensures s.id == resource.id && s.name == resource.entity.name && s.description == resource.entity.description
  {
    Stack(resource.entity.description, resource.id, resource.entity.name)
  }

  /** The resource a summary was taken from. */
  function FromStack(s: Stack): Resource<StackEntity>
  {
    Resource(s.id, StackEntity(s.name, s.description))
  }

  /** The summary keeps every field it reads, none swapped. */
  lemma ToStackRoundTrip(resource: Resource<StackEntity>, s: Stack)
    ensures FromStack(ToStack(resource)) == resource
    ensures ToStack(FromStack(s)) == s
  {
  }

  /** The stack with that name, which must be unique. */
  function GetStack(server: Server, name: string): (r: Result<Resource<StackEntity>, Error>)
    ensures r.Ok? <==> server.stacks.Listing? && |MatchingStacks(server, name)| == 1
    ensures r.Ok? ==> r.value == MatchingStacks(server, name)[0] && r.value.entity.name == name
    ensures server.stacks.Listing? && |MatchingStacks(server, name)| == 0
      ==> r == Err(IllegalArgument("Stack " + name + " does not exist"))
    ensures server.stacks.Listing? && |MatchingStacks(server, name)| > 1 ==> r == Err(TooManyElements)
  {
    LookupSingle(server.stacks, StackFilter(name), DoesNotExist("Stack ", name))
  }

  /** The stack with the requested name, as its summary. There is no validation
      step: the lookup is the first and only call. */
  function Get(server: Server, request: GetStackRequest): (o: Outcome<Stack>)
    ensures o.calls == [ListStacks(Some(request.name))]
    ensures o.result.Ok? <==> server.stacks.Listing? && |MatchingStacks(server, request.name)| == 1
    ensures o.result.Ok? ==> o.result.value == ToStack(MatchingStacks(server, request.name)[0])
    ensures o.result.Ok? ==> o.result.value.name == request.name
    ensures server.stacks.Listing? && |MatchingStacks(server, request.name)| == 0
      ==> o.result == Err(IllegalArgument("Stack " + request.name + " does not exist"))
  {
    var stack := GetStack(server, request.name);
    Outcome([ListStacks(Some(request.name))], if stack.Ok? then Ok(ToStack(stack.value)) else Err(stack.error))
  }

  /** Every stack, as its summary, in server order; no name filter is sent. */
  function List(server: Server): (o: Outcome<seq<Stack>>)
    ensures o.calls == [ListStacks(None)]
    ensures o.result.Err? <==> server.stacks.Unavailable?
    ensures o.result.Ok? ==>
      && |o.result.value| == |server.stacks.items|
      && forall i :: 0 <= i < |o.result.value| ==> o.result.value[i] == ToStack(server.stacks.items[i])
  {
    match server.stacks
    case Unavailable(e) => Outcome([ListStacks(None)], Err(e))
    case Listing(items) => Outcome([ListStacks(None)], Ok(Project(items, ToStack)))
  }

  /** `get` of a name finds exactly the stack `list` shows under that name, when
      the name is unique. */
  lemma GetAgreesWithList(server: Server, name: string)
    requires server.stacks.Listing? && |MatchingStacks(server, name)| == 1
    ensures Get(server, GetStackRequest(name)).result.Ok?
    ensures Get(server, GetStackRequest(name)).result.value in List(server).result.value
  {
    var r := MatchingStacks(server, name)[0];
    assert r in MatchingStacks(server, name);
    var i :| 0 <= i < |server.stacks.items| && server.stacks.items[i] == r;
    assert List(server).result.value[i] == ToStack(r);
  }
}

=== FILE: unbind_service_request.dfy ===
/** The request of the "unbind a service from an application" operation. */
module UnbindServiceRequests {
  import opened Results
  import opened Validation

  const ApplicationNameMissing := "application name must be specified"
  const ServiceNameMissing := "service name must be specified"

  /** Both names may be absent (`null` in the builder); the fields are fixed at
      construction. */
  datatype UnbindServiceRequest = UnbindServiceRequest(applicationName: Option<string>, serviceName: Option<string>)

  /** Number of required names the request leaves out. */
  function MissingCount(request: UnbindServiceRequest): nat
  {
    (if request.applicationName.None? then 1 else 0) + (if request.serviceName.None? then 1 else 0)
  }

  /** The request's own validity check: one message per missing name, the
      application name's first. */
  function IsValid(request: UnbindServiceRequest): (r: ValidationResult)
    ensures ApplicationNameMissing in r.messages <==> request.applicationName.None?
    ensures ServiceNameMissing in r.messages <==> request.serviceName.None?
    ensures |r.messages| == MissingCount(request)
    ensures forall i :: 0 <= i < |r.messages| ==> r.messages[i] in {ApplicationNameMissing, ServiceNameMissing}
    ensures request.applicationName.None? ==> r.messages[0] == ApplicationNameMissing
    ensures request.applicationName.Some? && request.serviceName.None? ==> r.messages[0] == ServiceNameMissing
    ensures r.Status() == Valid <==> request.applicationName.Some? && request.serviceName.Some?
  {
    var first := if request.applicationName.None? then [ApplicationNameMissing] else [];
    var second := if request.serviceName.None? then [ServiceNameMissing] else [];
    ValidationResult(first + second)
  }

  /** With both names missing there are exactly two messages, in field order. */
  lemma BothMissing()
    ensures IsValid(UnbindServiceRequest(None, None)).messages == [ApplicationNameMissing, ServiceNameMissing]
  {
  }
}

=== FILE: validation.dfy ===
/** The outcome of a request's `isValid` check and the step every operation
    runs before touching the client. */
module Validation {
  import opened Results
  import opened Errors

  datatype Status = Valid | Invalid

  /** The ordered messages an `isValid` check produced. */
  datatype ValidationResult = ValidationResult(messages: seq<string>) {

    /** A result is invalid exactly when some message was produced. */
    function Status(): (s: Status)
      ensures s == Valid <==> |messages| == 0
    {
      if |messages| == 0 then Valid else Invalid
    }
  }

  /** The validation step of an operation: a valid request passes through, an
      invalid one becomes a `RequestInvalid` error carrying every message. */
  function Validate<R>(request: R, verdict: ValidationResult): (r: Result<R, Error>)
    ensures r.Ok? <==> verdict.Status() == Valid
    ensures r.Ok? ==> r.value == request
    ensures r.Err? ==> r.error == RequestInvalid(verdict.messages) && |r.error.messages| > 0
  {
    if verdict.Status() == Valid then Ok(request) else Err(RequestInvalid(verdict.messages))
  }
}
